=== FILE: README.md ===
# OpenAIChatHelper conversation model in Dafny

This project models the local data model of OpenAIChatHelper, a Python wrapper
around the OpenAI chat API, and proves properties of it. It covers:

- **Substitution.** The placeholder substitution every serialiser performs: Python's
  `str.format_map` restricted to `{key}`, `{{` and `}}`. It is backed by the
  string-only `SubstitutionDict`.
- **Content and messages.** Text, image and audio content with their validation and
  serialisation, in three message forms:
  - the list-of-content `Message` of `OpenAIHelper`;
  - the `SystemAndUserMessage` of `OpenAIChatHelper`, which normalises a lone
    content object into a list;
  - the older flat-keyword `Message` of `src`, which builds its content records
    itself.
- **Message lists.** The two `MessageList` containers: an ordered sequence of
  messages plus a separate system slot. Both are mutated in place and serialised
  system message first.
- **Tool calls.** The `ToolCalls` record: field validation, and substitution in all
  four of its strings.
- **Text helpers.** `split_ordered_list`, and the whitespace step of `remove_markdown`.

Python's dynamic values are the datatype `PyValues.Value` (string, integer,
boolean, None, list, string-keyed dict). With it, every `isinstance` check, every
truthiness test and every `in {...}` test on an unhashable value keeps its own
error branch. Each `ValueError` or `TypeError` the source raises is a constructor
of an error datatype, and each raising operation returns a `Result` or `Outcome`.

The modules follow the source files:

| module (file) | source |
|---|---|
| `Formatting` (format.dfy) | `str.format_map` as used by every `to_dict` |
| `Substitution` (substitution_dict.dfy) | src/SubstitutionDict.py |
| `Contents` (contents.dfy) | `TextContent`, `ImageContent`, `AudioContent` of OpenAIHelper/Message.py |
| `Messages` (message.dfy) | `Message` of OpenAIHelper/Message.py |
| `MessageLists` (message_list.dfy) | OpenAIHelper/MessageList.py |
| `ChatMessages` (chat_message.dfy) | `SystemAndUserMessage` of OpenAIChatHelper/Message.py |
| `ToolCalls` (tool_calls.dfy) | OpenAIChatHelper/message/ToolCalls.py |
| `FlatMessages` (flat_message.dfy) | src/Message.py |
| `FlatMessageLists` (flat_message_list.dfy) | src/MessageList.py |
| `StringOperations` (string_operations.dfy) | OpenAIHelper/utils/StringOperations.py |
| `Strings`, `Sequences`, `PyValues`, `Wrappers` | Python built-ins the above rely on |

**How each kind of code is modelled.**

- **Immutable objects are datatypes.** Content objects and messages are never
  changed after construction. The invariant a message constructor establishes is a
  subset type: `Messages.Message`, `ChatMessages.ChatMessage`, `ToolCalls.ToolCall`.
- **Constructors with loops are methods.** Where a constructor loops over its items,
  or builds its records by successive appends, it is a method. That method is proved
  equal to a specification function (`Accepts`/`Built`, `ChatAccepts`/`ChatBuilt`,
  `Validate`/`ContentRecords`).
- **Containers are classes.** The two message lists and the substitution dict are
  mutated in place, so each is a class with `seq`, `Option` or `map` fields. Its
  methods state the whole new state.
- **Loops become loops.** `pop_messages`, the deep-copy walk of the flat
  `to_dict`, and the line loop of `split_ordered_list` are `for` loops with
  invariants. They are proved against `Reverse`, `SubstituteContent` and
  `Run`/`Finish`.

## Model

| member | source | states |
|---|---|---|
| Formatting.LookupKey | src/SubstitutionDict.py:11-14 | a field is looked up in the mapping; an absent key is a key-miss error naming the key, and a None mapping is a type error |
| Formatting.FormatUnparse | OpenAIHelper/Message.py:66 | formatting any well-formed template (literal text with `{{`/`}}` escapes and `{key}` fields) equals rendering its pieces: literals unchanged, each field replaced by its value, the first failing field's error raised |
| Formatting.FormatEscaped | OpenAIHelper/Message.py:66 | escaped literal text is reproduced unchanged whatever follows it |
| Formatting.FormatField | OpenAIHelper/Message.py:66 | a `{key}` field is replaced by the mapping's value and formatting continues after it; a missing key stops formatting with that error |
| Formatting.FormatEscape | OpenAIHelper/Message.py:66 | formatting the escaped form of any text gives that text back |
| Formatting.FormatPlainText | OpenAIHelper/Message.py:66 | text without braces is returned unchanged, with or without a mapping |
| Formatting.FormatSingleClose | OpenAIHelper/Message.py:66 | a lone `}` is a malformed-format error |
| Formatting.FormatSingleOpen | OpenAIHelper/Message.py:66 | a trailing lone `{` is a malformed-format error |
| Formatting.FormatUnclosedField | OpenAIHelper/Message.py:66 | a field opened with `{` and never closed is a malformed-format error, whatever the mapping |
| Formatting.RenderSucceeds | src/SubstitutionDict.py:14 | with a mapping, a template renders iff every field's key is in the mapping; otherwise the error is a key miss for an absent key |
| Formatting.RenderWithoutMapping | src/Message.py:114 | with no mapping (None), a template renders iff it has no field, and the error is the no-mapping type error |
| Formatting.RenderLitField | OpenAIHelper/Message.py:66 | literal text followed by one field renders to the text followed by the field's value |
| Formatting.SayHello | OpenAIHelper/Message.py:66 | `"Say {x}"` with `x = "hello"` gives `"Say hello"` |
| Formatting.MissingKeyFails | src/SubstitutionDict.py:14 | `{k}` with `k` absent is a key miss for `k`; with no mapping it is the no-mapping error |
| Formatting.EmptyMappingRendersOnlyLiterals | OpenAIChatHelper/message/ToolCalls.py:38 | under the empty mapping, a template formats iff it has no field |
| Formatting.Escape | OpenAIHelper/Message.py:66 | escaping leaves brace-free text unchanged |
| Substitution.AssignThenLookup | src/SubstitutionDict.py:4-14 | after a successful write, the written key reads back the value, and every other key reads as before |
| Substitution.AssignRejects | src/SubstitutionDict.py:5-8 | a non-string key fails with the key error, checked before a non-string value, which fails with the value error |
| Substitution.SubstitutionDict.SetItem | src/SubstitutionDict.py:4-9 | a non-string key or value fails and leaves the map unchanged; otherwise the map gains exactly that binding |
| Substitution.SubstitutionDict.GetItem | src/SubstitutionDict.py:11-14 | a non-string key fails with the value error, not a lookup miss; a string key succeeds iff present and returns its value, and an absent key is a key miss |
| Substitution.SubstitutionDict.constructor | src/SubstitutionDict.py:1 | a new substitution dict is empty |
| Contents.ParseDetail | OpenAIHelper/Message.py:129-134 | each allowed detail name maps to the detail that prints as it |
| Contents.ParseFormat | OpenAIHelper/Message.py:189-192 | each allowed audio format name maps to the format that prints as it |
| Contents.NewText | OpenAIHelper/Message.py:41-53 | construction succeeds iff the text is a string, and stores it |
| Contents.NewImage | OpenAIHelper/Message.py:114-136 | construction succeeds iff the URL is a string and the detail is None or one of low, high and auto; the URL is checked first; a detail is stored iff one was given |
| Contents.NewAudio | OpenAIHelper/Message.py:174-194 | construction succeeds iff the data is a string and the format is mp3 or wav; the data is checked first |
| Contents.ImageUrlRecord | OpenAIHelper/Message.py:149-152 | the `image_url` record has a `url` key, and a `detail` key exactly when a detail was given |
| Contents.ContentToDict | OpenAIHelper/Message.py:55-66 | the record is tagged with the content type; a text record holds the formatted text, and only text formatting can fail; image and audio records are fixed |
| Contents.PlainTextToDict | OpenAIHelper/Message.py:66 | placeholder-free text serialises to itself under any mapping |
| Contents.MissingPlaceholderToDict | OpenAIHelper/Message.py:66 | text holding a placeholder whose key is absent fails, with and without a mapping |
| Contents.MediaIgnoresMapping | OpenAIHelper/Message.py:138-152 | image and audio records are the same whatever mapping is passed |
| Contents.TextReprIndented | OpenAIHelper/Message.py:68-75 | in a text display string every newline is followed by six spaces, and removing them gives the header plus the text |
| Contents.MediaReprTruncated | OpenAIHelper/Message.py:154-162 | image and audio display strings show only the first 15 characters of URL or data, so their length is bounded |
| Messages.ParseRole | OpenAIHelper/Message.py:250-251 | each allowed role name maps to the role that prints as it |
| Messages.AsListOnlyLists | OpenAIHelper/Message.py:258-261 | `isinstance(content, list)` holds exactly for a list; a Python list of plain values yields its elements, none of them a Content object |
| Messages.WrapSingleNormalises | OpenAIChatHelper/Message.py:58-59 | the normalisation is idempotent and keeps truthiness; afterwards the argument passes the list check iff it did before or was a lone Content object, which becomes the one-element list holding it |
| Messages.ContentsOf | OpenAIHelper/Message.py:262-264 | the checked items, in order |
| Messages.CheckItems | OpenAIHelper/Message.py:262-264 | the item loop succeeds iff every item is a Content, and then returns them in order |
| Messages.Built | OpenAIHelper/Message.py:233-271 | the constructed message has the given role and as many items as were passed |
| Messages.NewMessage | OpenAIHelper/Message.py:233-271 | each error in source order (unhashable role, unknown role, non-string name, empty content, non-list content, non-Content item, then `SystemNotOneText` for a system message whose content is not exactly one text item); success iff `Accepts`, yielding `Built` |
| Messages.OneTextAccepted | OpenAIHelper/Message.py:265-269 | one text item is accepted for every role, including system |
| Messages.SystemMessageHasOneText | OpenAIHelper/Message.py:265-269 | every constructed system message holds exactly one text item |
| Messages.ContentsToDict | OpenAIHelper/Message.py:284-287 | the content list serialises iff every item does, keeping count and order |
| Messages.SerializeMessage | OpenAIHelper/Message.py:273-290 | the record has role, content and, exactly when the name is non-empty, the substituted name; no other key |
| Messages.ToDictKeepsOrder | OpenAIHelper/Message.py:284-287 | item `i` of the serialised content is the record of content item `i` |
| Messages.PlainMessageSerializes | OpenAIHelper/Message.py:273-290 | a placeholder-free message serialises under any mapping and keeps its name verbatim |
| Messages.Len | OpenAIHelper/Message.py:304-311 | the length is the number of items, at least one, and exactly one for a system message |
| Messages.GetItemNegativeIndex | OpenAIHelper/Message.py:313-323 | `message[i - len(message)]` is `message[i]`; an index past either end is an IndexError |
| Messages.GetItemReturnsConstructorItem | OpenAIHelper/Message.py:313-323 | `message[i]` and `message[i - len]` are both the i-th item given to the constructor |
| Messages.DisplayStringAligned | OpenAIHelper/Message.py:292-302 | the display string is the coloured heading followed by the items, each newline indented by the heading's width, and removing that indentation gives the items back |
| MessageLists.PromptText | OpenAIHelper/MessageList.py:31-35 | a system prompt is given by a string or a TextContent, and nothing else |
| MessageLists.Admit | OpenAIHelper/MessageList.py:83-87 | a message object is admitted iff its stored role is user or assistant |
| MessageLists.GetAttr | OpenAIHelper/Message.py:224-323 | lookup succeeds exactly for the instance attributes `_role`, `_name`, `_content` (the stored role name, name and content list), the members the class defines and those inherited from `object`; any other name is an AttributeError |
| MessageLists.RoleIsNoAttribute | OpenAIHelper/Message.py:224-323 | `role` is none of those names, so `message.role` raises AttributeError |
| MessageLists.AdmitAsWritten | OpenAIHelper/MessageList.py:83 | the check as written passes only for a user or assistant message |
| MessageLists.AdmitAsWrittenRejectsEveryMessage | OpenAIHelper/MessageList.py:83 | the check as written fails on every message, with a missing `role` attribute, even a user message the intended check admits |
| MessageLists.AddMessageAsWrittenCounterexample | OpenAIHelper/MessageList.py:127 | a concrete user message that is rejected as written and admitted by the intended check |
| MessageLists.MessagesToDict | OpenAIHelper/MessageList.py:171-179 | the messages serialise iff each does, keeping count and order |
| MessageLists.MessageList.constructor | OpenAIHelper/MessageList.py:10-13 | a new list is empty with no system message |
| MessageLists.MessageList.Len | OpenAIHelper/MessageList.py:15-17 | the length counts the messages, not the system message |
| MessageLists.MessageList.SetSystemPrompt | OpenAIHelper/MessageList.py:19-35 | only a string or a TextContent is accepted, and a string is wrapped into a TextContent; success replaces the system slot; the messages never change |
| MessageLists.MessageList.UnsetSystemPrompt | OpenAIHelper/MessageList.py:37-39 | the slot is cleared, idempotently, and the messages are unchanged |
| MessageLists.MessageList.AddWithRole | OpenAIHelper/MessageList.py:52-54 | the message is appended iff the constructor accepts it, with a lone Content normalised; otherwise nothing changes |
| MessageLists.MessageList.AddUserMessage | OpenAIHelper/MessageList.py:41-54 | exactly one user message is appended at the end; earlier messages and the system slot are unchanged |
| MessageLists.MessageList.AddAssistantMessage | OpenAIHelper/MessageList.py:56-69 | exactly one assistant message is appended at the end; earlier messages and the system slot are unchanged |
| MessageLists.MessageList.AddMessage | OpenAIHelper/MessageList.py:71-87 | a user or assistant message is appended; a system message is rejected and nothing changes |
| MessageLists.MessageList.ModifyMessage | OpenAIHelper/MessageList.py:89-113 | out of range fails first, then a role outside user and assistant; on success only position `index` is replaced |
| MessageLists.MessageList.ModifyMessageWithObject | OpenAIHelper/MessageList.py:115-129 | the same bounds check, then the role check; on success only that slot is replaced |
| MessageLists.MessageList.PopMessage | OpenAIHelper/MessageList.py:131-142 | fails on an empty list; otherwise returns the last message and leaves the prefix |
| MessageLists.MessageList.PopMessages | OpenAIHelper/MessageList.py:144-158 | more than the length fails with no change; `n <= 0` returns nothing; otherwise returns the last `n` most recent first and leaves the prefix, and the remaining list plus the popped messages reversed back is the original list |
| MessageLists.MessageList.ToDict | OpenAIHelper/MessageList.py:160-179 | the system record first when set, then each message in order; the length is `len()` plus one when a system message is set |
| ChatMessages.ChatBuilt | OpenAIChatHelper/Message.py:31-71 | the constructed message has the given role |
| ChatMessages.NewSystemAndUserMessage | OpenAIChatHelper/Message.py:31-71 | roles are only user and system; errors in source order (role, name, emptiness before normalisation, list, items, then `SystemNotOneText` for a system message whose content is not exactly one text item); success iff `ChatAccepts`, yielding `ChatBuilt` |
| ChatMessages.LoneContentNormalised | OpenAIChatHelper/Message.py:56-59 | a lone Content is accepted exactly as the one-element list holding it |
| ChatMessages.ChatAcceptsAsCanonical | OpenAIChatHelper/Message.py:48-69 | the chat constructor accepts iff the role is user or system and the list-of-content constructor accepts the normalised argument; both build the same content |
| ChatMessages.DefaultMappingName | OpenAIChatHelper/Message.py:73-82 | under the default empty mapping, a message with a name serialises iff the name has no placeholder |
| ChatMessages.DefaultMappingText | OpenAIChatHelper/Message.py:73-82 | under the default empty mapping, any placeholder in a text item makes serialisation fail |
| ChatMessages.ChatLen | OpenAIChatHelper/Message.py:90-97 | the length is the number of items, at least one |
| ChatMessages.ChatGetItem | OpenAIChatHelper/Message.py:99-109 | indexing succeeds iff the index is in range and returns the stored item |
| ChatMessages.ChatGetItemReturnsConstructorItem | OpenAIChatHelper/Message.py:99-109 | `message[i]` and `message[i - len]` are both the i-th item given to the constructor |
| ToolCalls.NewToolCall | OpenAIChatHelper/message/ToolCalls.py:8-36 | id, type, function dict, name and arguments are checked in that order, each with its own error (`FunctionArgumentsNotString` last); success iff all hold, and the accessors return exactly the arguments |
| ToolCalls.ToolCallRecord | OpenAIChatHelper/message/ToolCalls.py:47-54 | the record has exactly the keys id, type and function, and function has exactly name and arguments |
| ToolCalls.ToDict | OpenAIChatHelper/message/ToolCalls.py:38-54 | all four strings are substituted; the result succeeds iff each does, and the id's failure is the one raised first |
| ToolCalls.ExtraFunctionEntriesDropped | OpenAIChatHelper/message/ToolCalls.py:50-53 | extra entries of the function dict do not affect the record |
| ToolCalls.PlainToolCallRoundTrip | OpenAIChatHelper/message/ToolCalls.py:38-54 | placeholder-free fields construct, and serialise under the default mapping to themselves |
| ToolCalls.DefaultMappingRejectsPlaceholder | OpenAIChatHelper/message/ToolCalls.py:38 | under the default mapping, a placeholder in any of the four strings makes serialisation fail |
| FlatMessages.Validate | src/Message.py:41-69 | each of the ten errors (role, text, URL, audio data, detail, format, audio pairing, no content, system without text, system with media) is raised exactly when every earlier check passes and its own fails; passes iff all hold |
| FlatMessages.ContentRecords | src/Message.py:72-93 | one record per truthy argument, in the order text, image, audio, each tagged with its type |
| FlatMessages.NewFlatMessage | src/Message.py:10-93 | a raw content is stored as is and skips every check; otherwise it fails with `Validate`'s error or stores `ContentRecords` |
| FlatMessages.SystemRecords | src/Message.py:63-69 | a valid system message holds exactly its text record |
| FlatMessages.EmptyTextYieldsNoRecord | src/Message.py:63-74 | an empty text passes validation yet yields no content record |
| FlatMessages.RecordsMatchCanonical | src/Message.py:72-93 | the records built for text and image equal what the list-of-content form serialises |
| FlatMessages.SubstituteItem | src/Message.py:106-108 | a text record has its text replaced by the formatted text; other records are unchanged |
| FlatMessages.SubstituteAll | src/Message.py:105-108 | the walk succeeds iff every record does, elementwise |
| FlatMessages.FlatToDictSpec | src/Message.py:95-115 | the record has the role, the content, and a name key iff the name is not None; with no mapping the content is unchanged |
| FlatMessages.SubstituteCopy | src/Message.py:103-108 | the copy-and-replace loop computes the substituted content |
| FlatMessages.FlatToDict | src/Message.py:95-115 | the method, which walks a copy of the content with `SubstituteCopy`, computes `FlatToDictSpec` |
| FlatMessages.SubstitutionKeepsRecords | src/Message.py:103-108 | substitution keeps the number and order of records, and output record `i` is the substitution of stored record `i` |
| FlatMessages.NameFormattedWithoutMapping | src/Message.py:109-115 | the name is formatted even without a mapping, so a placeholder in it fails; a None name gives no name key |
| FlatMessages.SubstituteItemIdentity | src/Message.py:106-108 | a record whose text has no placeholder is unchanged |
| FlatMessages.PlainConstructedMessage | src/Message.py:72-115 | a constructed message with placeholder-free text serialises its content unchanged under any mapping |
| FlatMessageLists.FlatMessagesToDict | src/MessageList.py:163-168 | the messages serialise without a mapping iff each does, in order |
| FlatMessageLists.FlatMessageList.constructor | src/MessageList.py:8-10 | a new list is empty with no system message |
| FlatMessageLists.FlatMessageList.Len | src/MessageList.py:12-13 | the length counts the messages, not the system message |
| FlatMessageLists.FlatMessageList.SetSystemPrompt | src/MessageList.py:15-26 | the text must be a string and the name a string or None; success replaces the system slot with the system message of that text |
| FlatMessageLists.FlatMessageList.UnsetSystemPrompt | src/MessageList.py:28-30 | the slot is cleared and the messages are unchanged |
| FlatMessageLists.FlatMessageList.AddUserMessage | src/MessageList.py:32-61 | exactly one user message is appended when validation passes; otherwise nothing changes |
| FlatMessageLists.FlatMessageList.AddAssistantMessage | src/MessageList.py:63-95 | exactly one assistant message is appended, unvalidated when raw content is given |
| FlatMessageLists.FlatMessageList.ModifyMessage | src/MessageList.py:97-134 | only the index is checked here; the role rules are the constructor's, including the raw-content bypass; only that slot changes |
| FlatMessageLists.FlatMessageList.PopMessage | src/MessageList.py:136-144 | fails when empty; otherwise removes and returns the last message |
| FlatMessageLists.FlatMessageList.PopMessages | src/MessageList.py:146-154 | fails without change when `len < n`; otherwise returns the last `n` most recent first, and the remaining list plus the popped messages reversed back is the original list |
| FlatMessageLists.FlatMessageList.ToDict | src/MessageList.py:156-168 | no mapping is passed; it succeeds iff the system message and every message serialise; the system record comes first, then the messages in order |
| FlatMessageLists.ToDictKeepsContent | src/MessageList.py:163-168 | serialising the list leaves every message's content as stored |
| FlatMessageLists.SystemPromptSerializes | src/MessageList.py:22-26 | a system prompt with a placeholder-free name serialises to its one text record |
| Sequences.ReverseReverse | OpenAIHelper/MessageList.py:156-158 | reversing the popped messages twice gives them back |
| StringOperations.CollapseNewlines | OpenAIHelper/utils/StringOperations.py:48-49 | collapsing keeps emptiness and the first character |
| StringOperations.CollapseLeavesNoTriple | OpenAIHelper/utils/StringOperations.py:48-49 | after collapsing, no run of three newlines is left |
| StringOperations.CollapseKeepsText | OpenAIHelper/utils/StringOperations.py:48-49 | collapsing removes newlines only: every other character survives, in order |
| StringOperations.TidyWhitespaceShape | OpenAIHelper/utils/StringOperations.py:48-49 | the tidied text has no run of three newlines and no leading or trailing whitespace |
| StringOperations.RemoveMarkdown | OpenAIHelper/utils/StringOperations.py:5-50 | without `extra_whitespace`, the text is what the markup passes produce; with it, no triple newline and no surrounding whitespace |
| StringOperations.SplitLines | OpenAIHelper/utils/StringOperations.py:71 | splitting yields at least one piece, and no piece holds a newline |
| StringOperations.JoinSplitLines | OpenAIHelper/utils/StringOperations.py:71 | joining the pieces with newlines gives the text back |
| StringOperations.Step | OpenAIHelper/utils/StringOperations.py:72-78 | a line opening item `number` closes the current item and bumps the number; any other line is appended to the current item after a newline |
| StringOperations.SplitOrderedList | OpenAIHelper/utils/StringOperations.py:53-81 | the loop computes `Finish(Run(...))` over the lines of the text, processed by `remove_markdown` only when the option is set |
| StringOperations.RunCounts | OpenAIHelper/utils/StringOperations.py:68-76 | the expected number and the item count grow by one per recognised line, and earlier items are never changed |
| StringOperations.SplitLength | OpenAIHelper/utils/StringOperations.py:79-81 | the result length is the number of recognised lines, plus one when the last item is non-empty |
| StringOperations.NoOpenKeepsAccumulating | OpenAIHelper/utils/StringOperations.py:77-78 | without a recognised line, no item is closed and the current item grows by at least one character per line |
| StringOperations.UnnumberedTextIsOneItem | OpenAIHelper/utils/StringOperations.py:68-81 | text with no recognised numbered line gives exactly one item |
| StringOperations.FirstItemOpensList | OpenAIHelper/utils/StringOperations.py:73-74 | when the first line opens item 1, the first element is the empty text before it |
| Strings.DedentIndent | OpenAIHelper/Message.py:75 | indenting after each newline loses nothing: dedenting recovers the text |
| Strings.IndentedNewlines | OpenAIHelper/Message.py:75 | after indenting, every newline is followed by the indentation |
| Strings.StripShape | OpenAIHelper/utils/StringOperations.py:72 | `strip` gives a slice of the text with no whitespace at either end |
| Strings.NatToString | OpenAIHelper/utils/StringOperations.py:73 | `str(n)` is a non-empty string of digits |

## Left out

- Formatting.Format: only the `{key}`, `{{` and `}}` subset of `format_map`. A field
  name that is empty, all digits, or contains `.`, `[`, `!`, `:` or `{` is reported
  as an unsupported field; Python would apply conversions, format specs, attribute
  or index access, or positional arguments.
- Formatting.PlainKey: only the ASCII digits `0`-`9` mark a field name as positional.
  Python also treats a name made of other Unicode decimal digits (such as `{٣}`) as
  positional; the model looks such a name up as a key instead.
- The regular-expression passes of `remove_markdown`
  (OpenAIHelper/utils/StringOperations.py:28-46) depend on Python's `re` semantics:
  six substitutions under five flags, namely bold and italic (two substitutions),
  headers, horizontal rules, blockquotes and strikethrough. Together they are the
  function parameter `markup`; only the whitespace step is modelled.
- Strings.IsSpace: the whitespace `strip` removes is the fixed list of Unicode
  whitespace code points. No Unicode normalisation or case folding is modelled.
- ANSI colour escapes in display strings are modelled as literal characters.
- `__repr__` of `ToolCalls`, of both message lists and of the flat `Message` is not
  modelled. It is display only.
- `TextContent.split_ordered_list` and `TextContent.remove_markdown`
  (OpenAIHelper/Message.py:77-102) are not modelled separately. They only pass the
  stored text to the helpers that are modelled.
- `OpenAIChatHelper/Contents.py`, imported by the chat message
  (OpenAIChatHelper/Message.py:3), is not part of this model. The model substitutes
  the OpenAIHelper content variants for its Content classes and relies only on their
  `content_type` tag. Content objects are taken to be truthy.
- Aliasing of Python lists and dicts: a list or dict passed to a constructor is
  stored as a value, so later mutation of the caller's object is not reflected. This
  covers the `function` dict of `ToolCalls`, which the source keeps by reference
  (OpenAIChatHelper/message/ToolCalls.py:21), hands out from its accessor (:36) and
  reads again in `to_dict` (:51-52); the model reads the dict as it was at construction.
- FlatMessages.SubstituteItem: raw content that is malformed (not a list of dicts
  with a `type` key) raises various Python exceptions inside `to_dict`. All of
  them are the one error `MalformedContent`.
- MessageLists.GetAttr: the member sets are those of Python 3.12; from Python 3.13
  every class also has `__static_attributes__` and `__firstlineno__`, which the model
  reports as missing.
- MessageLists.GetAttr: a class or `object` member is returned as its name only, not
  as a bound method; attributes assigned to an instance after construction are not
  modelled, since no code in the core assigns any.
- Dict keys are strings only. Python dicts with other key types are not represented.
- The dict constructor and `update` of `SubstitutionDict` bypass its checked
  `__setitem__`. Only item assignment and lookup are modelled, and a substitution
  mapping is a `map<string, string>`.
- The `isinstance(message, Message)` checks of `add_message` and
  `modify_message_with_object` always pass here, because the argument is typed.
- `AssistantMessage` of OpenAIChatHelper/Message.py is an empty class and is not
  modelled.
- Network endpoints, client configuration, logging and environment checks are
  outside the model.

## Findings

| source | as written | input that shows it | evidently intended | confidence | as-written member | corrected member |
|---|---|---|---|---|---|---|
| OpenAIHelper/MessageList.py:83 | `add_message` tests `message.role`, but a `Message` has no `role` attribute (only `_role`, `_name`, `_content` and its methods), so the attribute lookup raises for every message | `add_message(Message("user", [TextContent("I hate this.")]))` | admit a user or assistant message by its stored role | not executed | MessageLists.AdmitAsWrittenRejectsEveryMessage | MessageLists.MessageList.AddMessage |
| OpenAIHelper/MessageList.py:127 | `modify_message_with_object` tests `message.role` in the same way | any in-range index with a user message, as in `MessageLists.AddMessageAsWrittenCounterexample` | the same role check on the stored role | not executed | MessageLists.AddMessageAsWrittenCounterexample | MessageLists.MessageList.ModifyMessageWithObject |

=== FILE: chat_message.dfy ===
/**
 * The user/system message of OpenAIChatHelper/Message.py
 * (`SystemAndUserMessage`). It differs from the canonical message in three
 * ways: only the roles user and system exist, a lone Content object is
 * accepted in place of a list, and serialisation defaults to an empty
 * substitution mapping.
 */
module ChatMessages {
  import opened Wrappers
  import opened PyValues
  import opened Formatting
  import opened Contents
  import opened Messages

  datatype ChatRole = ChatUser | ChatSystem

  const ChatRoleNames: set<string> := {"user", "system"}

  function ChatRoleName(r: ChatRole): string {
    match r
    case ChatUser => "user"
    case ChatSystem => "system"
  }

  datatype ChatMessageData = ChatMessageData(role: ChatRole, content: seq<Content>, name: Option<string>)

  /** The invariant the constructor establishes: content is non-empty, and a system message holds one text item. */
  predicate ChatWellFormed(m: ChatMessageData) {
    && m.content != []
    && (m.role == ChatSystem ==> |m.content| == 1 && ContentType(m.content[0]) == "text")
  }

  type ChatMessage = m: ChatMessageData | ChatWellFormed(m) witness ChatMessageData(ChatUser, [Text("")], None)

  /** Whether `SystemAndUserMessage(role, content, name)` constructs a message rather than raising. */
  predicate ChatAccepts(role: Value, content: ContentArg, name: Value) {
    && IsOneOf(role, ChatRoleNames) && IsStrOrNone(name) && ArgTruthy(content)
    && AsList(WrapSingle(content)).Some? && AllContent(AsList(WrapSingle(content)).value)
    && (role.s == "system" ==>
          var cs := ContentsOf(AsList(WrapSingle(content)).value);
          |cs| == 1 && ContentType(cs[0]) == "text")
  }

  /** The message an accepted construction yields. */
  function ChatBuilt(role: Value, content: ContentArg, name: Value): (m: ChatMessage)
    requires ChatAccepts(role, content, name)
    ensures ChatRoleName(m.role) == role.s
  {
    var cs := ContentsOf(AsList(WrapSingle(content)).value);
    ChatMessageData(if role.s == "user" then ChatUser else ChatSystem, cs, NameOption(name))
  }

  /**
   * `SystemAndUserMessage(role, content, name)`: role, then name, then the
   * truthiness of `content` (before a lone Content is wrapped into a list),
   * then the list and item checks, then the system rule.
   */
  method NewSystemAndUserMessage(role: Value, content: ContentArg, name: Value) returns (r: Result<ChatMessage, MessageError>)
    ensures !Hashable(role) ==> r == Failure(UnhashableRole)
    ensures Hashable(role) && !IsOneOf(role, ChatRoleNames) ==> r == Failure(InvalidRole)
    ensures IsOneOf(role, ChatRoleNames) && !IsStrOrNone(name) ==> r == Failure(NameNotString)
    ensures IsOneOf(role, ChatRoleNames) && IsStrOrNone(name) && !ArgTruthy(content) ==> r == Failure(NoContent)
    ensures IsOneOf(role, ChatRoleNames) && IsStrOrNone(name) && ArgTruthy(content) && AsList(WrapSingle(content)).None? ==>
      r == Failure(ContentNotList)
    ensures (IsOneOf(role, ChatRoleNames) && IsStrOrNone(name) && ArgTruthy(content) && AsList(WrapSingle(content)).Some? &&
             !AllContent(AsList(WrapSingle(content)).value)) ==> r == Failure(ItemNotContent)
    ensures (IsOneOf(role, ChatRoleNames) && IsStrOrNone(name) && ArgTruthy(content) && AsList(WrapSingle(content)).Some? &&
             AllContent(AsList(WrapSingle(content)).value) && role.s == "system" &&
             var cs := ContentsOf(AsList(WrapSingle(content)).value);
             |cs| != 1 || ContentType(cs[0]) != "text") ==> r == Failure(SystemNotOneText)
    ensures r.Success? <==> ChatAccepts(role, content, name)
    ensures r.Success? ==> r.value == ChatBuilt(role, content, name)
  {
    if !Hashable(role) {
      return Failure(UnhashableRole);
    }
    if !IsOneOf(role, ChatRoleNames) {
      return Failure(InvalidRole);
    }
    if !IsStrOrNone(name) {
      return Failure(NameNotString);
    }
    if !ArgTruthy(content) {
      return Failure(NoContent);
    }
    var items := AsList(WrapSingle(content));
    if items.None? {
      return Failure(ContentNotList);
    }
    var cs := CheckItems(items.value);
    if cs.None? {
      return Failure(ItemNotContent);
    }
    if role.s == "system" && (|cs.value| != 1 || ContentType(cs.value[0]) != "text") {
      return Failure(SystemNotOneText);
    }
    r := Success(ChatBuilt(role, content, name));
  }

  /** A lone Content object is accepted exactly as the one-element list holding it. */
  lemma LoneContentNormalised(role: Value, c: Content, name: Value)
    ensures ChatAccepts(role, Single(ContentItem(c)), name) <==> ChatAccepts(role, ItemList([ContentItem(c)]), name)
    ensures ChatAccepts(role, Single(ContentItem(c)), name) ==>
      ChatBuilt(role, Single(ContentItem(c)), name).content == [c]
  {
    assert ContentsOf([ContentItem(c)]) == [c];
  }

  /**
   * The two message forms accept the same arguments, once the lone Content is
   * wrapped and the assistant role is set aside, and build the same content.
   */
  lemma {:induction false} ChatAcceptsAsCanonical(role: Value, content: ContentArg, name: Value)
    ensures ChatAccepts(role, content, name) <==> IsOneOf(role, ChatRoleNames) && Accepts(role, WrapSingle(content), name)
    ensures ChatAccepts(role, content, name) ==>
      ChatBuilt(role, content, name).content == Built(role, WrapSingle(content), name).content
  {
    assert ArgTruthy(content) <==> ArgTruthy(WrapSingle(content));
    if IsOneOf(role, ChatRoleNames) && AsList(WrapSingle(content)).Some? && AllContent(AsList(WrapSingle(content)).value) {
      var cs := ContentsOf(AsList(WrapSingle(content)).value);
      assert OneText(cs) <==> |cs| == 1 && ContentType(cs[0]) == "text";
    }
  }

  /** `to_dict(mapping)`: the same record as the canonical message. */
  function ChatToDict(m: ChatMessage, mapping: Mapping): Result<Value, FormatError> {
    SerializeMessage(ChatRoleName(m.role), m.content, m.name, mapping)
  }

  /** `to_dict()` with its default argument, an empty substitution mapping. */
  function ChatToDictDefault(m: ChatMessage): Result<Value, FormatError> {
    ChatToDict(m, Some(map[]))
  }

  /** Under the default mapping, a name written as `ps` is emitted exactly when it has no placeholder. */
  lemma {:induction false} DefaultMappingName(m: ChatMessage, ps: seq<Piece>)
    requires ValidPieces(ps) && m.name == Some(Unparse(ps)) && HasName(m.name)
    requires ContentsToDict(m.content, Some(map[])).Success?
    ensures ChatToDictDefault(m).Success? <==> forall i :: 0 <= i < |ps| ==> ps[i].Lit?
  {
    EmptyMappingRendersOnlyLiterals(ps);
  }

  /** Under the default mapping, a text item written as `ps` serialises exactly when it has no placeholder. */
  lemma {:induction false} DefaultMappingText(m: ChatMessage, i: nat, ps: seq<Piece>)
    requires i < |m.content| && ValidPieces(ps) && m.content[i] == Text(Unparse(ps))
    requires exists k :: 0 <= k < |ps| && ps[k].Field?
    ensures ChatToDictDefault(m).Failure?
  {
    EmptyMappingRendersOnlyLiterals(ps);
    assert ContentToDict(m.content[i], Some(map[])).Failure?;
  }

  /** `len(message)`. */
  function ChatLen(m: ChatMessage): (n: nat)
    ensures n == |m.content| && n >= 1
  {
    |m.content|
  }

  /** `message[index]`, with Python's negative indices. */
  function ChatGetItem(m: ChatMessage, index: int): (r: Result<Content, IndexError>)
    ensures r.Success? <==> -|m.content| <= index < |m.content|
    ensures 0 <= index < |m.content| ==> r == Success(m.content[index])
  {
    ItemAt(m.content, index)
  }

  /** Indexing after construction returns the items the constructor was given, in order. */
  lemma ChatGetItemReturnsConstructorItem(role: Value, content: ContentArg, name: Value, i: nat)
    requires ChatAccepts(role, content, name) && i < |AsList(WrapSingle(content)).value|
    ensures ChatGetItem(ChatBuilt(role, content, name), i) == Success(AsList(WrapSingle(content)).value[i].c)
    ensures ChatGetItem(ChatBuilt(role, content, name), i - |AsList(WrapSingle(content)).value|)
         == Success(AsList(WrapSingle(content)).value[i].c)
  {
  }

  /** `repr(message)`: the same display string as the canonical message. */
  function ChatRepr(m: ChatMessage): string {
    DisplayString(ChatRoleName(m.role), m.content, m.name)
  }
}

=== FILE: contents.dfy ===
/**
 * The content variants of a message (OpenAIHelper/Message.py): text, an image
 * reference and an audio clip. Constructors validate their arguments eagerly;
 * `to_dict` turns a content item into its request record, substituting
 * placeholders in text only; `__repr__` gives a display string.
 */
module Contents {
  import opened Wrappers
  import opened PyValues
  import opened Strings
  import opened Formatting

  datatype Detail = Low | High | Auto
  datatype AudioFormat = Mp3 | Wav

  datatype Content =
    | Text(text: string)
    | Image(url: string, detail: Option<Detail>)
    | Audio(data: string, format: AudioFormat)

  datatype ContentError =
    | TextNotString        // ValueError("Text must be a string")
    | UrlNotString         // ValueError("Image URL must be a string")
    | InvalidDetail        // ValueError("Invalid image details; ...")
    | DataNotString        // ValueError("Audio data must be a string")
    | InvalidAudioFormat   // ValueError("Invalid audio format; ...")
    | UnhashableArgument   // TypeError: an unhashable value tested against a set literal

  const DetailNames: set<string> := {"low", "high", "auto"}
  const FormatNames: set<string> := {"mp3", "wav"}

  function DetailName(d: Detail): string {
    match d
    case Low => "low"
    case High => "high"
    case Auto => "auto"
  }

  function FormatName(f: AudioFormat): string {
    match f
    case Mp3 => "mp3"
    case Wav => "wav"
  }

  /** The detail level named by a string of DetailNames. */
  function ParseDetail(s: string): (d: Detail)
    requires s in DetailNames
    ensures DetailName(d) == s
  {
    if s == "low" then Low else if s == "high" then High else Auto
  }

  /** The audio format named by a string of FormatNames. */
  function ParseFormat(s: string): (f: AudioFormat)
    requires s in FormatNames
    ensures FormatName(f) == s
  {
    if s == "mp3" then Mp3 else Wav
  }

  /** The `"type"` tag of the record a content item serialises to. */
  function ContentType(c: Content): string {
    match c
    case Text(_) => "text"
    case Image(_, _) => "image_url"
    case Audio(_, _) => "input_audio"
  }

  // ---------------------------------------------------------------------------
  // Constructors

  /** `TextContent(text)`. */
  function NewText(text: Value): (r: Result<Content, ContentError>)
    ensures r.Success? <==> text.Str?
    ensures r.Success? ==> r.value == Text(text.s)
    ensures r.Failure? ==> r.error == TextNotString
  {
    if !text.Str? then Failure(TextNotString) else Success(Text(text.s))
  }

  /** `ImageContent(image_url, image_details)`: the URL is checked first, then the detail level. */
  function NewImage(url: Value, details: Value): (r: Result<Content, ContentError>)
    ensures r.Success? <==> url.Str? && (details.NoneVal? || IsOneOf(details, DetailNames))
    ensures r.Success? ==> r.value.Image? && r.value.url == url.s
    ensures r.Success? ==> (r.value.detail.Some? <==> details.Str?)
    ensures r.Success? && details.Str? ==> DetailName(r.value.detail.value) == details.s
    ensures !url.Str? ==> r == Failure(UrlNotString)
    ensures url.Str? && !Hashable(details) ==> r == Failure(UnhashableArgument)
    ensures url.Str? && Hashable(details) && !details.NoneVal? && !IsOneOf(details, DetailNames) ==> r == Failure(InvalidDetail)
  {
    if !url.Str? then Failure(UrlNotString)
    else if !Hashable(details) then Failure(UnhashableArgument)
    else if details.NoneVal? then Success(Image(url.s, None))
    else if IsOneOf(details, DetailNames) then Success(Image(url.s, Some(ParseDetail(details.s))))
    else Failure(InvalidDetail)
  }

  /** `AudioContent(audio_data, audio_format)`: the data is checked first, then the format. */
  function NewAudio(data: Value, format: Value): (r: Result<Content, ContentError>)
    ensures r.Success? <==> data.Str? && IsOneOf(format, FormatNames)
    ensures r.Success? ==> r.value.Audio? && r.value.data == data.s && FormatName(r.value.format) == format.s
    ensures !data.Str? ==> r == Failure(DataNotString)
    ensures data.Str? && !Hashable(format) ==> r == Failure(UnhashableArgument)
    ensures data.Str? && Hashable(format) && !IsOneOf(format, FormatNames) ==> r == Failure(InvalidAudioFormat)
  {
    if !data.Str? then Failure(DataNotString)
    else if !Hashable(format) then Failure(UnhashableArgument)
    else if IsOneOf(format, FormatNames) then Success(Audio(data.s, ParseFormat(format.s)))
    else Failure(InvalidAudioFormat)
  }

  // ---------------------------------------------------------------------------
  // Serialisation

  /** `{"type": "text", "text": text}`. */
  function TextRecord(text: string): Value {
    Record2("type", Str("text"), "text", Str(text))
  }

  /** `{"url": url}`, with `"detail": detail` only when a detail is given. */
  function ImageUrlRecord(url: string, detail: Option<string>): (r: Value)
    ensures r.Dict? && r.entries.Keys <= {"url", "detail"}
    ensures "url" in r.entries && r.entries["url"] == Str(url)
    ensures "detail" in r.entries <==> detail.Some?
    ensures detail.Some? ==> r.entries["detail"] == Str(detail.value)
  {
    if detail.Some? then Record2("url", Str(url), "detail", Str(detail.value))
    else Record1("url", Str(url))
  }

  /** `{"type": "image_url", "image_url": {...}}`. */
  function ImageRecord(url: string, detail: Option<string>): Value {
    Record2("type", Str("image_url"), "image_url", ImageUrlRecord(url, detail))
  }

  /** `{"type": "input_audio", "input_audio": {"data": data, "format": format}}`. */
  function AudioRecord(data: string, format: string): Value {
    Record2("type", Str("input_audio"), "input_audio", Record2("data", Str(data), "format", Str(format)))
  }

  function DetailOption(d: Option<Detail>): Option<string> {
    if d.Some? then Some(DetailName(d.value)) else None
  }

  /**
   * `content.to_dict(substitution_dict)`: a record tagged with the content's type;
   * only text goes through placeholder substitution, so only text can fail.
   */
  function ContentToDict(c: Content, mapping: Mapping): (r: Result<Value, FormatError>)
    ensures r.Success? ==> r.value.Dict? && "type" in r.value.entries && r.value.entries["type"] == Str(ContentType(c))
    ensures r.Failure? ==> c.Text? && Format(c.text, mapping).Failure? && r.error == Format(c.text, mapping).error
    ensures c.Text? && Format(c.text, mapping).Success? ==> r == Success(TextRecord(Format(c.text, mapping).value))
    ensures c.Image? ==> r == Success(ImageRecord(c.url, DetailOption(c.detail)))
    ensures c.Audio? ==> r == Success(AudioRecord(c.data, FormatName(c.format)))
  {
    match c
    case Text(t) =>
      (match Format(t, mapping)
       case Success(s) => Success(TextRecord(s))
       case Failure(e) => Failure(e))
    case Image(url, d) => Success(ImageRecord(url, DetailOption(d)))
    case Audio(data, f) => Success(AudioRecord(data, FormatName(f)))
  }

  /** Placeholder-free text serialises to itself, with or without a mapping. */
  lemma PlainTextToDict(t: string, mapping: Mapping)
    requires NoBraces(t)
    ensures ContentToDict(Text(t), mapping) == Success(TextRecord(t))
  {
    FormatPlainText(t, mapping);
  }

  /** Text naming a key the mapping lacks fails with a lookup miss. */
  lemma MissingPlaceholderToDict(k: string, m: map<string, string>)
    requires PlainKey(k) && k !in m
    ensures ContentToDict(Text("{" + k + "}"), Some(m)) == Failure(KeyMissing(k))
    ensures ContentToDict(Text("{" + k + "}"), None) == Failure(NoMapping)
  {
    MissingKeyFails(k, m);
  }

  /** Image and audio records do not depend on the substitution mapping. */
  lemma MediaIgnoresMapping(c: Content, m1: Mapping, m2: Mapping)
    requires !c.Text?
    ensures ContentToDict(c, m1) == ContentToDict(c, m2)
  {
  }

  // ---------------------------------------------------------------------------
  // Display strings

  const Cyan: string := "\U{1b}[36m"
  const Reset: string := "\U{1b}[0m"

  /** The leading part of a display string, up to and including the space before the payload. */
  function ReprHeader(c: Content): string {
    match c
    case Text(_) => Cyan + "Text:" + Reset + " "
    case Image(_, d) => Cyan + "Image" + (if d.Some? then " (" + DetailName(d.value) + ")" else "") + ":" + Reset + " "
    case Audio(_, f) => Cyan + "Audio (" + FormatName(f) + "):" + Reset + " "
  }

  /** `repr(content)`: text is shown whole and indented by six; URLs and audio data are cut to 15 characters. */
  function ContentRepr(c: Content): string {
    match c
    case Text(t) => Indent(ReprHeader(c) + t, 6)
    case Image(url, _) => ReprHeader(c) + Take(url, 15) + "..."
    case Audio(data, _) => ReprHeader(c) + Take(data, 15) + "..."
  }

  /** In a text item's display string every newline is followed by six spaces, and no text is lost. */
  lemma TextReprIndented(t: string)
    ensures NewlinesIndented(ContentRepr(Text(t)), 6)
    ensures Dedent(ContentRepr(Text(t)), 6) == ReprHeader(Text(t)) + t
  {
    IndentedNewlines(ReprHeader(Text(t)) + t, 6);
    DedentIndent(ReprHeader(Text(t)) + t, 6);
  }

  /** Image and audio display strings show at most the first 15 characters of the URL or data. */
  lemma MediaReprTruncated(c: Content)
    requires !c.Text?
    ensures c.Image? ==> ContentRepr(c) == ContentRepr(Image(Take(c.url, 15), c.detail))
    ensures c.Audio? ==> ContentRepr(c) == ContentRepr(Audio(Take(c.data, 15), c.format))
    ensures |ContentRepr(c)| <= |ReprHeader(c)| + 15 + 3
  {
  }
}

=== FILE: flat_message.dfy ===
/**
 * The older flat-keyword message of src/Message.py. The constructor takes the
 * text, image and audio parts as separate keyword arguments and builds the
 * request records itself, or stores a raw `content` value unchecked. Its
 * `to_dict` substitutes placeholders in the text records of a copy of the
 * stored content, and always passes the name through `format_map`.
 */
module FlatMessages {
  import opened Wrappers
  import opened PyValues
  import opened Formatting
  import C = Contents
  import M = Messages

  /** A constructed message: role and name as given, and the content records (or the raw content). */
  datatype FlatMessage = FlatMessage(role: Value, name: Value, content: Value)

  datatype FlatError =
    | InvalidRole           // ValueError("Invalid role: ...")
    | TextNotString         // ValueError("Text content must be a string")
    | UrlNotString          // ValueError("Image URL must be a string")
    | AudioDataNotString    // ValueError("Audio data must be a string")
    | InvalidDetail         // ValueError("Invalid image details, ...")
    | InvalidAudioFormat    // ValueError("Invalid audio format, ...")
    | AudioPairMismatch     // ValueError("Audio data and audio format must both be provided or both be None")
    | NoContent             // ValueError("Message must have content")
    | SystemNeedsText       // ValueError("System message must have text content")
    | SystemMediaForbidden  // ValueError("System message cannot have image or audio content")
    | MalformedContent      // TypeError, KeyError or AttributeError raised while walking raw content
    | NameNotFormattable    // AttributeError: a name that is not a string has no `format_map`
    | FormatFailed(e: FormatError)

  /** `v in [None, *names]`: list membership compares by equality, so no value is rejected as unhashable. */
  predicate NoneOrOneOf(v: Value, names: set<string>) {
    v.NoneVal? || (v.Str? && v.s in names)
  }

  /** The checks before the audio pairing: the role, the three payload types and the two enumerations. */
  predicate FieldsValid(role: Value, text: Value, url: Value, details: Value, data: Value, format: Value) {
    && role.Str? && role.s in M.RoleNames
    && IsStrOrNone(text) && IsStrOrNone(url) && IsStrOrNone(data)
    && NoneOrOneOf(details, C.DetailNames) && NoneOrOneOf(format, C.FormatNames)
  }

  /**
   * The validation section of the constructor, in source order: role, the three
   * payload types, the two enumerations, the audio pair, presence of content, and
   * the two system-message rules.
   */
  function Validate(role: Value, text: Value, url: Value, details: Value, data: Value, format: Value): (r: Outcome<FlatError>)
    ensures !(role.Str? && role.s in M.RoleNames) ==> r == Fail(InvalidRole)
    ensures role.Str? && role.s in M.RoleNames && !IsStrOrNone(text) ==> r == Fail(TextNotString)
    ensures role.Str? && role.s in M.RoleNames && IsStrOrNone(text) && !IsStrOrNone(url) ==> r == Fail(UrlNotString)
    ensures role.Str? && role.s in M.RoleNames && IsStrOrNone(text) && IsStrOrNone(url) && !IsStrOrNone(data) ==>
      r == Fail(AudioDataNotString)
    ensures (role.Str? && role.s in M.RoleNames && IsStrOrNone(text) && IsStrOrNone(url) && IsStrOrNone(data) &&
             !NoneOrOneOf(details, C.DetailNames)) ==> r == Fail(InvalidDetail)
    ensures (role.Str? && role.s in M.RoleNames && IsStrOrNone(text) && IsStrOrNone(url) && IsStrOrNone(data) &&
             NoneOrOneOf(details, C.DetailNames) && !NoneOrOneOf(format, C.FormatNames)) ==> r == Fail(InvalidAudioFormat)
    ensures FieldsValid(role, text, url, details, data, format) && (data.NoneVal? <==> !format.NoneVal?) ==>
      r == Fail(AudioPairMismatch)
    ensures (FieldsValid(role, text, url, details, data, format) && (data.NoneVal? <==> format.NoneVal?) &&
             text.NoneVal? && url.NoneVal? && data.NoneVal?) ==> r == Fail(NoContent)
    ensures (FieldsValid(role, text, url, details, data, format) && (data.NoneVal? <==> format.NoneVal?) &&
             !(text.NoneVal? && url.NoneVal? && data.NoneVal?) && role.s == "system" && text.NoneVal?) ==>
      r == Fail(SystemNeedsText)
    ensures (FieldsValid(role, text, url, details, data, format) && (data.NoneVal? <==> format.NoneVal?) &&
             role.s == "system" && text.Str? && (Truthy(url) || Truthy(data))) ==> r == Fail(SystemMediaForbidden)
    ensures r.Pass? <==>
      && role.Str? && role.s in M.RoleNames
      && IsStrOrNone(text) && IsStrOrNone(url) && IsStrOrNone(data)
      && NoneOrOneOf(details, C.DetailNames) && NoneOrOneOf(format, C.FormatNames)
      && (data.NoneVal? <==> format.NoneVal?)
      && !(text.NoneVal? && url.NoneVal? && data.NoneVal?)
      && (role.s == "system" ==> text.Str? && !Truthy(url) && !Truthy(data))
    ensures r == Fail(AudioPairMismatch) ==> (data.NoneVal? <==> !format.NoneVal?)
    ensures r == Fail(SystemMediaForbidden) ==> role == Str("system") && text.Str? && (Truthy(url) || Truthy(data))
  {
    if !(role.Str? && role.s in M.RoleNames) then Fail(InvalidRole)
    else if !IsStrOrNone(text) then Fail(TextNotString)
    else if !IsStrOrNone(url) then Fail(UrlNotString)
    else if !IsStrOrNone(data) then Fail(AudioDataNotString)
    else if !NoneOrOneOf(details, C.DetailNames) then Fail(InvalidDetail)
    else if !NoneOrOneOf(format, C.FormatNames) then Fail(InvalidAudioFormat)
    else if (!data.NoneVal? && format.NoneVal?) || (data.NoneVal? && !format.NoneVal?) then Fail(AudioPairMismatch)
    else if text.NoneVal? && url.NoneVal? && data.NoneVal? then Fail(NoContent)
    else if role.s == "system" && text.NoneVal? then Fail(SystemNeedsText)
    else if role.s == "system" && (Truthy(url) || Truthy(data)) then Fail(SystemMediaForbidden)
    else Pass
  }

  /** The detail entry of an image record: present only when the detail argument is truthy. */
  function DetailEntry(details: Value): Option<string> {
    if Truthy(details) && details.Str? then Some(details.s) else None
  }

  /**
   * The content records of a validated call: a text record, an image record and an
   * audio record, in that order, each present only when its argument is truthy.
   */
  function ContentRecords(text: Value, url: Value, details: Value, data: Value, format: Value): (rs: seq<Value>)
    requires IsStrOrNone(text) && IsStrOrNone(url) && IsStrOrNone(data) && (data.Str? ==> format.Str?)
    ensures |rs| == (if Truthy(text) then 1 else 0) + (if Truthy(url) then 1 else 0) + (if Truthy(data) then 1 else 0)
    ensures Truthy(text) ==> rs[0] == C.TextRecord(text.s)
    ensures Truthy(data) ==> rs[|rs| - 1] == C.AudioRecord(data.s, format.s)
    ensures forall i :: 0 <= i < |rs| ==>
      rs[i].Dict? && "type" in rs[i].entries && (rs[i].entries["type"] == Str("text") ==> text.Str? && rs[i] == C.TextRecord(text.s))
  {
    (if Truthy(text) then [C.TextRecord(text.s)] else [])
    + (if Truthy(url) then [C.ImageRecord(url.s, DetailEntry(details))] else [])
    + (if Truthy(data) then [C.AudioRecord(data.s, format.s)] else [])
  }

  /**
   * `Message(role, text_content, image_url, image_details, audio_data, audio_format, name, content)`.
   * A raw `content` is stored as it is and every check is skipped; otherwise the
   * arguments are validated and the records appended one part at a time.
   */
  method NewFlatMessage(role: Value, text: Value, url: Value, details: Value, data: Value, format: Value,
                        name: Value, content: Value) returns (r: Result<FlatMessage, FlatError>)
    ensures !content.NoneVal? ==> r == Success(FlatMessage(role, name, content))
    ensures content.NoneVal? && Validate(role, text, url, details, data, format).Fail? ==>
      r == Failure(Validate(role, text, url, details, data, format).error)
    ensures content.NoneVal? && Validate(role, text, url, details, data, format).Pass? ==>
      r == Success(FlatMessage(role, name, List(ContentRecords(text, url, details, data, format))))
  {
    if !content.NoneVal? {
      return Success(FlatMessage(role, name, content));
    }
    var check := Validate(role, text, url, details, data, format);
    if check.Fail? {
      return Failure(check.error);
    }
    var records: seq<Value> := [];
    if Truthy(text) {
      records := records + [C.TextRecord(text.s)];
    }
    if Truthy(url) {
      if Truthy(details) {
        records := records + [C.ImageRecord(url.s, Some(details.s))];
      } else {
        records := records + [C.ImageRecord(url.s, None)];
      }
    }
    if Truthy(data) {
      records := records + [C.AudioRecord(data.s, format.s)];
    }
    assert records == ContentRecords(text, url, details, data, format);
    r := Success(FlatMessage(role, name, List(records)));
  }

  /** A validated system message carries no image or audio record, and a text record unless its text is empty. */
  lemma SystemRecords(text: Value, url: Value, details: Value, data: Value, format: Value)
    requires Validate(Str("system"), text, url, details, data, format).Pass?
    ensures var rs := ContentRecords(text, url, details, data, format);
      text.Str? && (rs == [] <==> text.s == []) && (rs != [] ==> rs == [C.TextRecord(text.s)])
  {
  }

  /** An empty text is accepted as content but produces no record, leaving the content list empty. */
  lemma EmptyTextYieldsNoRecord()
    ensures Validate(Str("user"), Str(""), NoneVal, NoneVal, NoneVal, NoneVal).Pass?
    ensures ContentRecords(Str(""), NoneVal, NoneVal, NoneVal, NoneVal) == []
  {
  }

  /** The flat records are the ones the canonical content items serialise to, when the text holds no placeholder. */
  lemma {:induction false} RecordsMatchCanonical(t: string, url: string, d: C.Detail, mapping: Mapping)
    requires NoBraces(t) && t != [] && url != []
    ensures C.ContentToDict(C.Text(t), mapping).Success?
    ensures ContentRecords(Str(t), Str(url), Str(C.DetailName(d)), NoneVal, NoneVal)
         == [C.ContentToDict(C.Text(t), mapping).value, C.ContentToDict(C.Image(url, Some(d)), mapping).value]
  {
    C.PlainTextToDict(t, mapping);
  }

  // ---------------------------------------------------------------------------
  // Serialisation

  /** `item["text"] = item["text"].format_map(m)` for a text record; other records are left alone. */
  function SubstituteItem(item: Value, m: map<string, string>): (r: Result<Value, FlatError>)
    ensures r.Success? ==> item.Dict? && "type" in item.entries && r.value.Dict?
    ensures r.Success? && item.entries["type"] != Str("text") ==> r.value == item
    ensures r.Success? && item.entries["type"] == Str("text") ==>
      "text" in item.entries && item.entries["text"].Str? && Format(item.entries["text"].s, Some(m)).Success? &&
      r.value.entries == item.entries["text" := Str(Format(item.entries["text"].s, Some(m)).value)]
  {
    if !item.Dict? || "type" !in item.entries then Failure(MalformedContent)
    else if item.entries["type"] != Str("text") then Success(item)
    else if "text" !in item.entries || !item.entries["text"].Str? then Failure(MalformedContent)
    else
      match Format(item.entries["text"].s, Some(m))
      case Failure(e) => Failure(FormatFailed(e))
      case Success(s) => Success(Dict(item.entries["text" := Str(s)]))
  }

  /** The substitution applied to every record in order; the first failure is the one raised. */
  function SubstituteAll(items: seq<Value>, m: map<string, string>): (r: Result<seq<Value>, FlatError>)
    ensures r.Success? <==> forall i :: 0 <= i < |items| ==> SubstituteItem(items[i], m).Success?
    ensures r.Success? ==> |r.value| == |items| && forall i :: 0 <= i < |items| ==> SubstituteItem(items[i], m) == Success(r.value[i])
  {
    if items == [] then Success([])
    else
      match SubstituteItem(items[0], m)
      case Failure(e) => Failure(e)
      case Success(head) =>
        match SubstituteAll(items[1..], m)
        case Failure(e) => Failure(e)
        case Success(tail) => Success([head] + tail)
  }

  /**
   * Walking the stored content: a list is walked record by record; an empty dict
   * or string has nothing to walk; anything else fails on its first element.
   */
  function SubstituteContent(content: Value, m: map<string, string>): Result<Value, FlatError> {
    match content
    case List(items) =>
      (match SubstituteAll(items, m)
       case Failure(e) => Failure(e)
       case Success(items') => Success(List(items')))
    case Dict(entries) => if entries == map[] then Success(content) else Failure(MalformedContent)
    case Str(s) => if s == [] then Success(content) else Failure(MalformedContent)
    case _ => Failure(MalformedContent)
  }

  /** The record built around the (substituted) content: the role, the content, and the formatted name unless it is None. */
  function WithRoleAndName(msg: FlatMessage, content: Value, mapping: Mapping): (r: Result<Value, FlatError>)
    ensures r.Success? ==> r.value.Dict? && "role" in r.value.entries && r.value.entries["role"] == msg.role
    ensures r.Success? ==> ("name" in r.value.entries <==> !msg.name.NoneVal?)
    ensures r.Success? ==> "content" in r.value.entries && r.value.entries["content"] == content
  {
    if msg.name.NoneVal? then Success(Record2("role", msg.role, "content", content))
    else if !msg.name.Str? then Failure(NameNotFormattable)
    else
      match Format(msg.name.s, mapping)
      case Failure(e) => Failure(FormatFailed(e))
      case Success(n) => Success(Dict(map["role" := msg.role, "content" := content, "name" := Str(n)]))
  }

  /** The record `to_dict(mapping)` returns, as a function of the message and the mapping. */
  function FlatToDictSpec(msg: FlatMessage, mapping: Mapping): (r: Result<Value, FlatError>)
    ensures r.Success? ==> r.value.Dict? && "role" in r.value.entries && r.value.entries["role"] == msg.role
    ensures r.Success? ==> ("name" in r.value.entries <==> !msg.name.NoneVal?)
    ensures r.Success? ==> "content" in r.value.entries
    ensures mapping.None? && r.Success? ==> r.value.entries["content"] == msg.content
  {
    var content :- if mapping.Some? then SubstituteContent(msg.content, mapping.value) else Success(msg.content);
    WithRoleAndName(msg, content, mapping)
  }

  /** Prepends `pre` to a successful result. */
  function Prepend(pre: seq<Value>, r: Result<seq<Value>, FlatError>): Result<seq<Value>, FlatError> {
    if r.Success? then Success(pre + r.value) else r
  }

  lemma PrependPrepend(a: seq<Value>, b: seq<Value>, r: Result<seq<Value>, FlatError>)
    ensures Prepend(a, Prepend(b, r)) == Prepend(a + b, r)
  {
    if r.Success? {
      assert a + (b + r.value) == (a + b) + r.value;
    }
  }

  lemma SubstituteAllStep(items: seq<Value>, i: nat, m: map<string, string>, v: Value)
    requires i < |items| && SubstituteItem(items[i], m) == Success(v)
    ensures SubstituteAll(items[i..], m) == Prepend([v], SubstituteAll(items[i + 1..], m))
  {
    assert items[i..][1..] == items[i + 1..];
  }

  /** One iteration of the walk: item `i` of the copy is replaced by its substituted record. */
  lemma CopyStep(items: seq<Value>, orig: seq<Value>, i: nat, v: Value, m: map<string, string>,
                 all: Result<seq<Value>, FlatError>)
    requires |items| == |orig| && i < |orig| && items[i..] == orig[i..]
    requires SubstituteItem(orig[i], m) == Success(v)
    requires all == Prepend(items[..i], SubstituteAll(orig[i..], m))
    ensures items[i := v][i + 1..] == orig[i + 1..]
    ensures all == Prepend(items[i := v][..i + 1], SubstituteAll(orig[i + 1..], m))
  {
    SubstituteAllStep(orig, i, m, v);
    PrependPrepend(items[..i], [v], SubstituteAll(orig[i + 1..], m));
    assert items[..i] + [v] == items[i := v][..i + 1];
    assert items[i + 1..] == items[i..][1..] == orig[i..][1..] == orig[i + 1..];
  }

  /** Before the walk nothing is replaced; after it, every record is. */
  lemma CopyEnds(orig: seq<Value>, items: seq<Value>, m: map<string, string>)
    ensures SubstituteAll(orig, m) == Prepend(orig[..0], SubstituteAll(orig[0..], m))
    ensures |items| == |orig| ==> Prepend(items[..|items|], SubstituteAll(orig[|items|..], m)) == Success(items)
  {
    assert orig[0..] == orig && orig[..0] == [];
    if SubstituteAll(orig, m).Success? {
      assert [] + SubstituteAll(orig, m).value == SubstituteAll(orig, m).value;
    }
    if |items| == |orig| {
      assert items[..|items|] == items && orig[|items|..] == [];
      assert items + [] == items;
    }
  }

  /** The walk over a copy of the stored content, replacing each text record's text in the copy. */
  method SubstituteCopy(content: Value, m: map<string, string>) returns (r: Result<Value, FlatError>)
    ensures r == SubstituteContent(content, m)
  {
    if !content.List? {
      return SubstituteContent(content, m);
    }
    var items := content.items;
    CopyEnds(content.items, items, m);
    for i := 0 to |items|
      invariant |items| == |content.items|
      invariant items[i..] == content.items[i..]
      invariant SubstituteAll(content.items, m) == Prepend(items[..i], SubstituteAll(content.items[i..], m))
    {
      var s := SubstituteItem(items[i], m);
      assert items[i] == items[i..][0] == content.items[i];
      if s.Failure? {
        return Failure(s.error);
      }
      CopyStep(items, content.items, i, s.value, m, SubstituteAll(content.items, m));
      items := items[i := s.value];
    }
    CopyEnds(content.items, items, m);
    r := Success(List(items));
  }

  /**
   * `to_dict(mapping)`: walks a copy of the stored content when a mapping is
   * given, then adds the role and, unless it is None, the name formatted with the
   * same mapping (even when that mapping is None).
   */
  method FlatToDict(msg: FlatMessage, mapping: Mapping) returns (r: Result<Value, FlatError>)
    ensures r == FlatToDictSpec(msg, mapping)
  {
    var contentCopy := msg.content;
    if mapping.Some? {
      var walked := SubstituteCopy(msg.content, mapping.value);
      if walked.Failure? {
        return Failure(walked.error);
      }
      contentCopy := walked.value;
    }
    r := WithRoleAndName(msg, contentCopy, mapping);
  }

  /** Substitution keeps the number and order of records and changes only the text of text records. */
  lemma SubstitutionKeepsRecords(msg: FlatMessage, m: map<string, string>, i: nat)
    requires msg.content.List? && FlatToDictSpec(msg, Some(m)).Success? && i < |msg.content.items|
    ensures var out := FlatToDictSpec(msg, Some(m)).value.entries["content"];
      && out.List? && |out.items| == |msg.content.items|
      && SubstituteItem(msg.content.items[i], Some(m).value) == Success(out.items[i])
  {
  }

  /** Without a mapping the content is returned untouched, but the name still goes through `format_map`. */
  lemma NameFormattedWithoutMapping(role: Value, content: Value, k: string)
    requires PlainKey(k)
    ensures FlatToDictSpec(FlatMessage(role, Str("{" + k + "}"), content), None) == Failure(FormatFailed(NoMapping))
    ensures FlatToDictSpec(FlatMessage(role, NoneVal, content), None) == Success(Record2("role", role, "content", content))
  {
    MissingKeyFails(k, map[]);
  }

  /** A record whose text, if it is a text record, holds no placeholder is left as it is by substitution. */
  lemma SubstituteItemIdentity(item: Value, m: map<string, string>)
    requires item.Dict? && "type" in item.entries
    requires item.entries["type"] == Str("text") ==>
      "text" in item.entries && item.entries["text"].Str? && NoBraces(item.entries["text"].s)
    ensures SubstituteItem(item, m) == Success(item)
  {
    if item.entries["type"] == Str("text") {
      FormatPlainText(item.entries["text"].s, Some(m));
      assert item.entries["text" := item.entries["text"]] == item.entries;
    }
  }

  /** A constructed message with placeholder-free text and no name serialises to its own records under any mapping. */
  lemma PlainConstructedMessage(role: Value, text: string, url: Value, details: Value, data: Value, format: Value, mapping: Mapping)
    requires Validate(role, Str(text), url, details, data, format).Pass? && NoBraces(text)
    ensures var rs := ContentRecords(Str(text), url, details, data, format);
      FlatToDictSpec(FlatMessage(role, NoneVal, List(rs)), mapping) == Success(Record2("role", role, "content", List(rs)))
  {
    var rs := ContentRecords(Str(text), url, details, data, format);
    if mapping.Some? {
      forall i | 0 <= i < |rs| ensures SubstituteItem(rs[i], mapping.value) == Success(rs[i]) {
        SubstituteItemIdentity(rs[i], mapping.value);
      }
      assert SubstituteAll(rs, mapping.value).value == rs;
    }
  }
}

=== FILE: flat_message_list.dfy ===
/**
 * The conversation container of src/MessageList.py, holding flat-keyword
 * messages. Unlike the OpenAIHelper container it does no role check of its
 * own: the roles it admits are whatever the message constructor admits,
 * including any role at all when a raw content value is passed.
 */
module FlatMessageLists {
  import opened Wrappers
  import opened PyValues
  import opened FlatMessages
  import opened Sequences
  import Formatting
  import Contents

  datatype FlatListError =
    | TextNotStr         // ValueError("text_content must be a string")
    | NameNotStr         // ValueError("name must be a string")
    | IndexNotInRange    // ValueError("Index out of range")
    | NothingToPop       // ValueError("No message to pop")
    | TooFewMessages     // ValueError("Not enough messages to pop")
    | Refused(e: FlatError)  // the error raised by the Message constructor

  /** `[m.to_dict() for m in ms]`: no mapping is passed, so only names are formatted. */
  function FlatMessagesToDict(ms: seq<FlatMessage>): (r: Result<seq<Value>, FlatError>)
    ensures r.Success? <==> forall i :: 0 <= i < |ms| ==> FlatToDictSpec(ms[i], None).Success?
    ensures r.Success? ==> |r.value| == |ms| && forall i :: 0 <= i < |ms| ==> FlatToDictSpec(ms[i], None) == Success(r.value[i])
  {
    if ms == [] then Success([])
    else
      match FlatToDictSpec(ms[0], None)
      case Failure(e) => Failure(e)
      case Success(head) =>
        match FlatMessagesToDict(ms[1..])
        case Failure(e) => Failure(e)
        case Success(tail) => Success([head] + tail)
  }

  /** The system message `set_system_prompt(text, name)` stores. */
  function SystemPrompt(text: string, name: Value): FlatMessage {
    FlatMessage(Str("system"), name, List(ContentRecords(Str(text), NoneVal, NoneVal, NoneVal, NoneVal)))
  }

  class FlatMessageList {
    var messages: seq<FlatMessage>
    var system: Option<FlatMessage>

    constructor ()
      ensures messages == [] && system == None
    {
      messages := [];
      system := None;
    }

    /** `len(list)`: the system message is not counted. */
    function Len(): (n: nat)
      reads this
      ensures n == |messages|
    {
      |messages|
    }

    /** `set_system_prompt(text_content, name)`: the text must be a string and the name a string or None. */
    method SetSystemPrompt(text: Value, name: Value) returns (r: Outcome<FlatListError>)
      modifies this
      ensures messages == old(messages)
      ensures !text.Str? ==> r == Fail(TextNotStr)
      ensures text.Str? && !IsStrOrNone(name) ==> r == Fail(NameNotStr)
      ensures r.Pass? <==> text.Str? && IsStrOrNone(name)
      ensures r.Pass? ==> system == Some(SystemPrompt(text.s, name))
      ensures r.Fail? ==> system == old(system)
    {
      if !text.Str? {
        return Fail(TextNotStr);
      }
      if !(name.NoneVal? || name.Str?) {
        return Fail(NameNotStr);
      }
      var m := NewFlatMessage(Str("system"), text, NoneVal, NoneVal, NoneVal, NoneVal, name, NoneVal);
      system := Some(m.value);
      r := Pass;
    }

    /** `unset_system_prompt`: clears the slot and leaves the messages alone. */
    method UnsetSystemPrompt()
      modifies this
      ensures system == None && messages == old(messages)
    {
      system := None;
    }

    /** `add_user_message(...)`: one user message appended at the end; no raw content can be passed. */
    method AddUserMessage(text: Value, url: Value, details: Value, data: Value, format: Value, name: Value)
      returns (r: Outcome<FlatListError>)
      modifies this
      ensures system == old(system)
      ensures Validate(Str("user"), text, url, details, data, format).Fail? ==>
        r == Fail(Refused(Validate(Str("user"), text, url, details, data, format).error)) && messages == old(messages)
      ensures Validate(Str("user"), text, url, details, data, format).Pass? ==>
        r.Pass? && messages == old(messages) + [FlatMessage(Str("user"), name, List(ContentRecords(text, url, details, data, format)))]
    {
      var m := NewFlatMessage(Str("user"), text, url, details, data, format, name, NoneVal);
      if m.Failure? {
        return Fail(Refused(m.error));
      }
      messages := messages + [m.value];
      r := Pass;
    }

    /** `add_assistant_message(...)`: one assistant message appended at the end; a raw content bypasses every check. */
    method AddAssistantMessage(text: Value, url: Value, details: Value, data: Value, format: Value, name: Value, content: Value)
      returns (r: Outcome<FlatListError>)
      modifies this
      ensures system == old(system)
      ensures !content.NoneVal? ==> r.Pass? && messages == old(messages) + [FlatMessage(Str("assistant"), name, content)]
      ensures content.NoneVal? && Validate(Str("assistant"), text, url, details, data, format).Pass? ==>
        r.Pass? && messages == old(messages) + [FlatMessage(Str("assistant"), name, List(ContentRecords(text, url, details, data, format)))]
      ensures content.NoneVal? && Validate(Str("assistant"), text, url, details, data, format).Fail? ==>
        r == Fail(Refused(Validate(Str("assistant"), text, url, details, data, format).error)) && messages == old(messages)
    {
      var m := NewFlatMessage(Str("assistant"), text, url, details, data, format, name, content);
      if m.Failure? {
        return Fail(Refused(m.error));
      }
      messages := messages + [m.value];
      r := Pass;
    }

    /**
     * `modify_message(index, role, ...)`: only the index is checked here; the role
     * is the constructor's business, and a raw content skips even that.
     */
    method ModifyMessage(index: int, role: Value, text: Value, url: Value, details: Value, data: Value, format: Value,
                         name: Value, content: Value) returns (r: Outcome<FlatListError>)
      modifies this
      ensures system == old(system)
      ensures !(0 <= index < |old(messages)|) ==> r == Fail(IndexNotInRange) && messages == old(messages)
      ensures 0 <= index < |old(messages)| && !content.NoneVal? ==>
        r.Pass? && messages == old(messages)[index := FlatMessage(role, name, content)]
      ensures 0 <= index < |old(messages)| && content.NoneVal? && Validate(role, text, url, details, data, format).Pass? ==>
        r.Pass? && messages == old(messages)[index := FlatMessage(role, name, List(ContentRecords(text, url, details, data, format)))]
      ensures 0 <= index < |old(messages)| && content.NoneVal? && Validate(role, text, url, details, data, format).Fail? ==>
        r == Fail(Refused(Validate(role, text, url, details, data, format).error)) && messages == old(messages)
    {
      if index >= |messages| || index < 0 {
        return Fail(IndexNotInRange);
      }
      var m := NewFlatMessage(role, text, url, details, data, format, name, content);
      if m.Failure? {
        return Fail(Refused(m.error));
      }
      messages := messages[index := m.value];
      r := Pass;
    }

    /** `pop_message`: removes and returns the last message. */
    method PopMessage() returns (r: Result<FlatMessage, FlatListError>)
      modifies this
      ensures system == old(system)
      ensures old(messages) == [] ==> r == Failure(NothingToPop) && messages == []
      ensures old(messages) != [] ==> r == Success(old(messages)[|old(messages)| - 1])
      ensures old(messages) != [] ==> messages == old(messages)[..|old(messages)| - 1]
    {
      if |messages| == 0 {
        return Failure(NothingToPop);
      }
      r := Success(messages[|messages| - 1]);
      messages := messages[..|messages| - 1];
    }

    /** `pop_messages(repeat)`: all or nothing; the popped messages come most recent first. */
    method PopMessages(repeat: int) returns (r: Result<seq<FlatMessage>, FlatListError>)
      modifies this
      ensures system == old(system)
      ensures |old(messages)| < repeat ==> r == Failure(TooFewMessages) && messages == old(messages)
      ensures repeat <= 0 ==> r == Success([]) && messages == old(messages)
      ensures 0 <= repeat <= |old(messages)| ==>
        && r.Success?
        && messages == old(messages)[..|old(messages)| - repeat]
        && r.value == Reverse(old(messages)[|old(messages)| - repeat..])
      ensures r.Success? ==> old(messages) == messages + Reverse(r.value)
    {
      if |messages| < repeat {
        return Failure(TooFewMessages);
      }
      var count := if repeat < 0 then 0 else repeat;
      var popped: seq<FlatMessage> := [];
      for i := 0 to count
        invariant system == old(system)
        invariant messages == old(messages)[..|old(messages)| - i]
        invariant |popped| == i
        invariant forall j :: 0 <= j < i ==> popped[j] == old(messages)[|old(messages)| - 1 - j]
      {
        popped := popped + [messages[|messages| - 1]];
        messages := messages[..|messages| - 1];
      }
      assert popped == Reverse(old(messages)[|old(messages)| - count..]);
      PoppedRestore(old(messages), count);
      r := Success(popped);
    }

    /** `to_dict()`: the system record first when one is set, then the messages in order, all without a mapping. */
    function ToDict(): (r: Result<seq<Value>, FlatError>)
      reads this
      ensures r.Success? <==>
        && (system.Some? ==> FlatToDictSpec(system.value, None).Success?)
        && forall i :: 0 <= i < |messages| ==> FlatToDictSpec(messages[i], None).Success?
      ensures r.Success? ==> |r.value| == |messages| + (if system.Some? then 1 else 0)
      ensures r.Success? && system.Some? ==> FlatToDictSpec(system.value, None) == Success(r.value[0])
      ensures r.Success? ==> var offset := if system.Some? then 1 else 0;
        forall i :: 0 <= i < |messages| ==> FlatToDictSpec(messages[i], None) == Success(r.value[offset + i])
    {
      var head :- if system.Some? then FlatMessagesToDict([system.value]) else Success([]);
      var tail :- FlatMessagesToDict(messages);
      Success(head + tail)
    }
  }

  /** Serialising the list leaves every message's content exactly as stored, since no mapping is passed. */
  lemma ToDictKeepsContent(ms: seq<FlatMessage>, i: nat)
    requires FlatMessagesToDict(ms).Success? && i < |ms|
    ensures FlatMessagesToDict(ms).value[i].entries["content"] == ms[i].content
  {
    assert FlatToDictSpec(ms[i], None) == Success(FlatMessagesToDict(ms).value[i]);
  }

  /** A system prompt whose name holds no placeholder always serialises, to its text record alone. */
  lemma SystemPromptSerializes(text: string, name: Value)
    requires text != [] && (name.Str? ==> Formatting.NoBraces(name.s)) && IsStrOrNone(name)
    ensures FlatToDictSpec(SystemPrompt(text, name), None).Success?
    ensures FlatToDictSpec(SystemPrompt(text, name), None).value.entries["content"] == List([Contents.TextRecord(text)])
  {
    if name.Str? {
      Formatting.FormatPlainText(name.s, None);
    }
  }
}

=== FILE: format.dfy ===
/**
 * Python's `str.format_map(mapping)` restricted to the placeholder forms the
 * message templates use: `{key}` is replaced by the mapping's value for `key`,
 * `{{` and `}}` stand for literal braces. Every serialiser of the model routes
 * its text and names through `Format`.
 */
module Formatting {
  import opened Wrappers
  import PyValues
  import Substitution

  datatype FormatError =
    | KeyMissing(key: string)  // KeyError raised by the mapping's lookup
    | NoMapping                // TypeError: format_map(None) reaches a field
    | SingleOpen               // ValueError: "Single '{' encountered in format string"
    | SingleClose              // ValueError: "Single '}' encountered in format string"
    | UnclosedField            // ValueError: "expected '}' before end of string"
    | UnsupportedField         // a field outside the modelled subset (see PlainKey)

  /** The mapping handed to `format_map`: `None`, or the bindings of a substitution dictionary. */
  type Mapping = Wrappers.Option<map<string, string>>

  predicate IsBrace(c: char) {
    c == '{' || c == '}'
  }

  predicate NoBraces(s: string) {
    forall i :: 0 <= i < |s| ==> !IsBrace(s[i])
  }

  predicate AllDigits(s: string) {
    forall i :: 0 <= i < |s| ==> '0' <= s[i] <= '9'
  }

  /**
   * A field name that `format_map` looks up as a plain key: non-empty, not a
   * positional index, and free of the attribute, index, conversion and format-spec
   * markers (and of braces).
   */
  predicate PlainKey(name: string) {
    && name != []
    && !AllDigits(name)
    && forall i :: 0 <= i < |name| ==> name[i] !in ".[!:{}"
  }

  /** Prepends `p` to a successful result; an error passes through. */
  function Prefix(p: string, r: Result<string, FormatError>): (r': Result<string, FormatError>)
    ensures r'.Success? <==> r.Success?
    ensures r.Success? ==> r'.value == p + r.value
    ensures r.Failure? ==> r' == r
  {
    if r.Success? then Success(p + r.value) else r
  }

  /** The value `mapping[key]`, through the substitution dictionary's checked read. */
  function LookupKey(key: string, mapping: Mapping): (r: Result<string, FormatError>)
    ensures mapping.None? ==> r == Failure(NoMapping)
    ensures mapping.Some? ==> (r.Success? <==> key in mapping.value)
    ensures mapping.Some? && key in mapping.value ==> r.value == mapping.value[key]
    ensures mapping.Some? && key !in mapping.value ==> r == Failure(KeyMissing(key))
  {
    if mapping.None? then Failure(NoMapping)
    else match Substitution.Lookup(mapping.value, PyValues.Str(key))
      case Success(v) => Success(v)
      case Failure(_) => Failure(KeyMissing(key))
  }

  /** The first index at or after `i` holding a brace, or `|s|`. */
  function FieldEnd(s: string, i: nat): (j: nat)
    requires i <= |s|
    ensures i <= j <= |s|
    ensures forall k :: i <= k < j ==> !IsBrace(s[k])
    ensures j < |s| ==> IsBrace(s[j])
    decreases |s| - i
  {
    if i == |s| || IsBrace(s[i]) then i else FieldEnd(s, i + 1)
  }

  /** `s.format_map(mapping)`, scanning left to right; the first error met is the one raised. */
  function Format(s: string, mapping: Mapping): Result<string, FormatError>
    decreases |s|
  {
    if s == [] then Success([])
    else if s[0] == '{' then
      if |s| == 1 then Failure(SingleOpen)
      else if s[1] == '{' then Prefix("{", Format(s[2..], mapping))
      else
        var j := FieldEnd(s, 1);
        if j == |s| then Failure(UnclosedField)
        else if s[j] == '{' || !PlainKey(s[1..j]) then Failure(UnsupportedField)
        else match LookupKey(s[1..j], mapping)
          case Failure(e) => Failure(e)
          case Success(v) => Prefix(v, Format(s[j + 1..], mapping))
    else if s[0] == '}' then
      if |s| >= 2 && s[1] == '}' then Prefix("}", Format(s[2..], mapping))
      else Failure(SingleClose)
    else Prefix([s[0]], Format(s[1..], mapping))
  }

  // ---------------------------------------------------------------------------
  // A reference semantics: a template is a sequence of literal pieces and fields.

  datatype Piece = Lit(text: string) | Field(name: string)

  predicate ValidPieces(ps: seq<Piece>) {
    forall i :: 0 <= i < |ps| ==> ps[i].Field? ==> PlainKey(ps[i].name)
  }

  /** Writes `t` as format-string text: every brace is doubled. */
  function Escape(t: string): (r: string)
    ensures NoBraces(t) ==> r == t
  {
    if t == [] then []
    else (if IsBrace(t[0]) then [t[0], t[0]] else [t[0]]) + Escape(t[1..])
  }

  /** The format string that denotes a template. */
  function Unparse(ps: seq<Piece>): string {
    if ps == [] then []
    else
      (match ps[0]
       case Lit(t) => Escape(t)
       case Field(k) => "{" + k + "}")
      + Unparse(ps[1..])
  }

  /** What a template means: its literal text with every field replaced by its value, left to right. */
  function Render(ps: seq<Piece>, mapping: Mapping): Result<string, FormatError> {
    if ps == [] then Success([])
    else match ps[0]
      case Lit(t) => Prefix(t, Render(ps[1..], mapping))
      case Field(k) =>
        match LookupKey(k, mapping)
        case Failure(e) => Failure(e)
        case Success(v) => Prefix(v, Render(ps[1..], mapping))
  }

  // ---------------------------------------------------------------------------
  // Format agrees with the reference semantics.

  lemma PrefixPrefix(a: string, b: string, r: Result<string, FormatError>)
    ensures Prefix(a, Prefix(b, r)) == Prefix(a + b, r)
  {
    if r.Success? {
      assert a + (b + r.value) == (a + b) + r.value;
    }
  }

  lemma FormatOrdinaryChar(c: char, tail: string, mapping: Mapping)
    requires !IsBrace(c)
    ensures Format([c] + tail, mapping) == Prefix([c], Format(tail, mapping))
  {
    assert ([c] + tail)[1..] == tail;
  }

  lemma FormatDoubledBrace(c: char, tail: string, mapping: Mapping)
    requires IsBrace(c)
    ensures Format([c, c] + tail, mapping) == Prefix([c], Format(tail, mapping))
  {
    assert ([c, c] + tail)[2..] == tail;
  }

  /** One character of escaped text, given that the rest of the text is reproduced. */
  lemma FormatEscapedStep(t: string, rest: string, mapping: Mapping)
    requires t != []
    requires Format(Escape(t[1..]) + rest, mapping) == Prefix(t[1..], Format(rest, mapping))
    ensures Format(Escape(t) + rest, mapping) == Prefix(t, Format(rest, mapping))
  {
    var tail := Escape(t[1..]) + rest;
    assert t == [t[0]] + t[1..];
    PrefixPrefix([t[0]], t[1..], Format(rest, mapping));
    if IsBrace(t[0]) {
      assert Escape(t) + rest == [t[0], t[0]] + tail;
      FormatDoubledBrace(t[0], tail, mapping);
    } else {
      assert Escape(t) + rest == [t[0]] + tail;
      FormatOrdinaryChar(t[0], tail, mapping);
    }
  }

  /** Escaped literal text is reproduced unchanged, whatever follows it. */
  lemma {:induction false} FormatEscaped(t: string, rest: string, mapping: Mapping)
    ensures Format(Escape(t) + rest, mapping) == Prefix(t, Format(rest, mapping))
    decreases |t|
  {
    if t == [] {
      assert Escape(t) + rest == rest;
      assert Prefix(t, Format(rest, mapping)) == Format(rest, mapping) by {
        if Format(rest, mapping).Success? {
          assert t + Format(rest, mapping).value == Format(rest, mapping).value;
        }
      }
    } else {
      FormatEscaped(t[1..], rest, mapping);
      FormatEscapedStep(t, rest, mapping);
    }
  }

  /** A plain field is looked up and the rest of the string is formatted after it. */
  lemma FormatField(k: string, rest: string, mapping: Mapping)
    requires PlainKey(k)
    ensures LookupKey(k, mapping).Failure? ==> Format("{" + k + "}" + rest, mapping) == Failure(LookupKey(k, mapping).error)
    ensures LookupKey(k, mapping).Success? ==>
      Format("{" + k + "}" + rest, mapping) == Prefix(LookupKey(k, mapping).value, Format(rest, mapping))
  {
    var s := "{" + k + "}" + rest;
    assert s[1] == k[0];
    assert s[1..|k| + 1] == k;
    assert forall i :: 1 <= i < |k| + 1 ==> s[i] == k[i - 1];
    assert IsBrace(s[|k| + 1]);
    assert forall i :: 1 <= i < |k| + 1 ==> !IsBrace(s[i]) by {
      forall i | 1 <= i < |k| + 1 ensures !IsBrace(s[i]) {
        assert s[i] == k[i - 1] && k[i - 1] !in ".[!:{}";
      }
    }
    assert FieldEnd(s, 1) == |k| + 1;
    assert s[|k| + 2..] == rest;
  }

  /** Format of the unparsed template is the template's meaning. */
  lemma {:induction false} FormatUnparse(ps: seq<Piece>, mapping: Mapping)
    requires ValidPieces(ps)
    ensures Format(Unparse(ps), mapping) == Render(ps, mapping)
  {
    if ps == [] {
    } else {
      assert ValidPieces(ps[1..]) by {
        forall i | 0 <= i < |ps[1..]| && ps[1..][i].Field? ensures PlainKey(ps[1..][i].name) {
          assert ps[1..][i] == ps[i + 1];
        }
      }
      FormatUnparse(ps[1..], mapping);
      match ps[0]
      case Lit(t) =>
        FormatEscaped(t, Unparse(ps[1..]), mapping);
      case Field(k) =>
        assert PlainKey(ps[0].name);
        assert Unparse(ps) == "{" + k + "}" + Unparse(ps[1..]);
        FormatField(k, Unparse(ps[1..]), mapping);
    }
  }

  /** Escaping is undone by formatting, for any mapping, including none. */
  lemma FormatEscape(t: string, mapping: Mapping)
    ensures Format(Escape(t), mapping) == Success(t)
  {
    FormatEscaped(t, [], mapping);
    assert Escape(t) + [] == Escape(t);
    assert t + [] == t;
  }

  /** Text without braces passes through unchanged, for any mapping, including none. */
  lemma FormatPlainText(s: string, mapping: Mapping)
    requires NoBraces(s)
    ensures Format(s, mapping) == Success(s)
  {
    FormatEscape(s, mapping);
  }

  /** A single `}` not doubled is an error. */
  lemma FormatSingleClose(t: string, rest: string, mapping: Mapping)
    requires rest == [] || rest[0] != '}'
    ensures Format(Escape(t) + "}" + rest, mapping) == Failure(SingleClose)
  {
    FormatEscaped(t, "}" + rest, mapping);
    assert Escape(t) + "}" + rest == Escape(t) + ("}" + rest);
  }

  /** A `{` that ends the string is an error. */
  lemma FormatSingleOpen(t: string, mapping: Mapping)
    ensures Format(Escape(t) + "{", mapping) == Failure(SingleOpen)
  {
    FormatEscaped(t, "{", mapping);
  }

  /** A field that is opened but never closed is an error, whatever the mapping. */
  lemma FormatUnclosedField(t: string, key: string, mapping: Mapping)
    requires key != [] && NoBraces(key)
    ensures Format(Escape(t) + "{" + key, mapping) == Failure(UnclosedField)
  {
    var s := "{" + key;
    assert Escape(t) + "{" + key == Escape(t) + s;
    FormatEscaped(t, s, mapping);
    assert forall k :: 1 <= k < |s| ==> s[k] == key[k - 1];
    assert FieldEnd(s, 1) == |s|;
    assert Format(s, mapping) == Failure(UnclosedField);
  }

  /** A template renders against a mapping exactly when the mapping binds every field. */
  lemma {:induction false} RenderSucceeds(ps: seq<Piece>, m: map<string, string>)
    ensures Render(ps, Some(m)).Success? <==> forall i :: 0 <= i < |ps| && ps[i].Field? ==> ps[i].name in m
    ensures Render(ps, Some(m)).Failure? ==> Render(ps, Some(m)).error.KeyMissing? && Render(ps, Some(m)).error.key !in m
  {
    if ps != [] {
      RenderSucceeds(ps[1..], m);
      assert forall i :: 1 <= i < |ps| ==> ps[i] == ps[1..][i - 1];
    }
  }

  /** Without a mapping, a template renders exactly when it has no field. */
  lemma {:induction false} RenderWithoutMapping(ps: seq<Piece>)
    ensures Render(ps, None).Success? <==> forall i :: 0 <= i < |ps| ==> ps[i].Lit?
    ensures Render(ps, None).Failure? ==> Render(ps, None).error == NoMapping
  {
    if ps != [] {
      RenderWithoutMapping(ps[1..]);
      assert forall i :: 1 <= i < |ps| ==> ps[i] == ps[1..][i - 1];
    }
  }

  /** On success, rendering against a mapping that binds every field substitutes each field. */
  lemma RenderLitField(lit: string, k: string, m: map<string, string>)
    requires k in m
    ensures Render([Lit(lit), Field(k)], Some(m)) == Success(lit + m[k])
  {
    assert [Lit(lit), Field(k)][1..] == [Field(k)];
    assert [Field(k)][1..] == [];
    assert Render([Field(k)], Some(m)) == Success(m[k]) by {
      assert m[k] + [] == m[k];
    }
  }

  /** `"Say {x}".format_map({"x": "hello"}) == "Say hello"`. */
  lemma SayHello()
    ensures Format("Say {x}", Some(map["x" := "hello"])) == Success("Say hello")
  {
    var m := map["x" := "hello"];
    assert NoBraces("Say ");
    assert PlainKey("x") by { assert !('0' <= "x"[0] <= '9'); }
    assert "Say {x}" == Escape("Say ") + ("{" + "x" + "}" + []);
    FormatEscaped("Say ", "{" + "x" + "}" + [], Some(m));
    FormatField("x", [], Some(m));
    assert Format([], Some(m)) == Success([]);
    assert "x" in m && m["x"] == "hello";
    assert LookupKey("x", Some(m)) == Success("hello");
    assert "hello" + [] == "hello";
    assert Format("{" + "x" + "}" + [], Some(m)) == Success("hello");
    assert "Say " + "hello" == "Say hello";
  }

  /** A placeholder whose key is absent is a lookup miss, not literal text. */
  lemma MissingKeyFails(k: string, m: map<string, string>)
    requires PlainKey(k) && k !in m
    ensures Format("{" + k + "}", Some(m)) == Failure(KeyMissing(k))
    ensures Format("{" + k + "}", None) == Failure(NoMapping)
  {
    FormatField(k, [], Some(m));
    FormatField(k, [], None);
    assert "{" + k + "}" + [] == "{" + k + "}";
  }

  /** Under an empty mapping a template renders exactly when it has no placeholder field. */
  lemma EmptyMappingRendersOnlyLiterals(ps: seq<Piece>)
    requires ValidPieces(ps)
    ensures Format(Unparse(ps), Some(map[])).Success? <==> forall i :: 0 <= i < |ps| ==> ps[i].Lit?
  {
    FormatUnparse(ps, Some(map[]));
    RenderSucceeds(ps, map[]);
  }
}

=== FILE: message.dfy ===
/**
 * A conversation message in its canonical form (OpenAIHelper/Message.py): a
 * role, a non-empty list of content items and an optional sender name. A
 * system message holds exactly one text item. Messages are never changed after
 * construction.
 */
module Messages {
  import opened Wrappers
  import opened PyValues
  import opened Strings
  import opened Formatting
  import opened Contents

  datatype Role = User | Assistant | System

  const RoleNames: set<string> := {"user", "assistant", "system"}

  function RoleName(r: Role): string {
    match r
    case User => "user"
    case Assistant => "assistant"
    case System => "system"
  }

  function ParseRole(s: string): (r: Role)
    requires s in RoleNames
    ensures RoleName(r) == s
  {
    if s == "user" then User else if s == "assistant" then Assistant else System
  }

  // ---------------------------------------------------------------------------
  // Constructor arguments: Python objects that may or may not be Content.

  /** An element of a content list: a Content object or any other value. */
  datatype Item = ContentItem(c: Content) | OtherItem(v: Value)

  /** The `content` argument: a Python list of items, or a single object. */
  datatype ContentArg = ItemList(items: seq<Item>) | Single(item: Item)

  /** `bool(content)`: Content objects are always truthy. */
  predicate ArgTruthy(a: ContentArg) {
    match a
    case ItemList(items) => items != []
    case Single(ContentItem(_)) => true
    case Single(OtherItem(v)) => Truthy(v)
  }

  /** The elements of `content` when `isinstance(content, list)`, and None otherwise. */
  function AsList(a: ContentArg): (r: Option<seq<Item>>)
    ensures a.ItemList? ==> r == Some(a.items)
    ensures a.Single? && a.item.ContentItem? ==> r.None?
  {
    match a
    case ItemList(items) => Some(items)
    case Single(OtherItem(List(vs))) => Some(seq(|vs|, i requires 0 <= i < |vs| => OtherItem(vs[i])))
    case Single(_) => None
  }

  /** The normalisation `if isinstance(content, Content): content = [content]`. */
  function WrapSingle(a: ContentArg): (r: ContentArg)
    ensures a.Single? && a.item.ContentItem? ==> r == ItemList([a.item])
    ensures !(a.Single? && a.item.ContentItem?) ==> r == a
  {
    if a.Single? && a.item.ContentItem? then ItemList([a.item]) else a
  }

  /**
   * After the normalisation a lone Content object reads as the one-element list
   * holding it; normalising twice changes nothing, and truthiness is kept.
   */
  lemma WrapSingleNormalises(a: ContentArg)
    ensures WrapSingle(WrapSingle(a)) == WrapSingle(a)
    ensures ArgTruthy(WrapSingle(a)) == ArgTruthy(a)
    ensures AsList(WrapSingle(a)).Some? <==> AsList(a).Some? || (a.Single? && a.item.ContentItem?)
    ensures a.Single? && a.item.ContentItem? ==> AsList(WrapSingle(a)) == Some([a.item])
  {
  }

  /**
   * Only a list passes `isinstance(content, list)`: a Python list value yields its
   * elements, none of them a Content object; anything else yields None.
   */
  lemma AsListOnlyLists(a: ContentArg)
    ensures AsList(a).Some? <==> a.ItemList? || (a.Single? && a.item.OtherItem? && a.item.v.List?)
    ensures a.Single? && AsList(a).Some? ==>
      |AsList(a).value| == |a.item.v.items| && forall i :: 0 <= i < |AsList(a).value| ==> !AsList(a).value[i].ContentItem?
  {
  }

  predicate AllContent(items: seq<Item>) {
    forall i :: 0 <= i < |items| ==> items[i].ContentItem?
  }

  /** The Content objects of a list whose every element is one. */
  function ContentsOf(items: seq<Item>): (cs: seq<Content>)
    requires AllContent(items)
    ensures |cs| == |items| && forall i :: 0 <= i < |items| ==> cs[i] == items[i].c
  {
    seq(|items|, i requires 0 <= i < |items| => items[i].c)
  }

  /** The loop `for item in content: if not isinstance(item, Content): raise`. */
  method CheckItems(items: seq<Item>) returns (r: Option<seq<Content>>)
    ensures r.Some? <==> AllContent(items)
    ensures r.Some? ==> r.value == ContentsOf(items)
  {
    var cs: seq<Content> := [];
    for i := 0 to |items|
      invariant |cs| == i
      invariant forall j :: 0 <= j < i ==> items[j].ContentItem? && cs[j] == items[j].c
    {
      if !items[i].ContentItem? {
        return None;
      }
      cs := cs + [items[i].c];
    }
    return Some(cs);
  }

  /** The `name` argument as stored: a string or None. */
  function NameOption(name: Value): Option<string>
    requires IsStrOrNone(name)
  {
    if name.Str? then Some(name.s) else None
  }

  // ---------------------------------------------------------------------------
  // The message

  datatype MessageData = MessageData(role: Role, content: seq<Content>, name: Option<string>)

  /** The invariant the constructor establishes. */
  predicate WellFormed(m: MessageData) {
    && m.content != []
    && (m.role == System ==> |m.content| == 1 && m.content[0].Text?)
  }

  type Message = m: MessageData | WellFormed(m) witness MessageData(User, [Text("")], None)

  datatype MessageError =
    | UnhashableRole      // TypeError: `role not in {...}` with an unhashable role
    | InvalidRole         // ValueError("Invalid role: ...")
    | NameNotString       // ValueError("name must be a string")
    | NoContent           // ValueError("Message must have content")
    | ContentNotList      // ValueError("Content must be a list")
    | ItemNotContent      // ValueError("Content items must be Content objects")
    | SystemNotOneText    // ValueError("System messages must have exactly one text content item")

  /** The content list a system message must have: one text item. */
  predicate OneText(cs: seq<Content>) {
    |cs| == 1 && cs[0].Text?
  }

  /** Whether `Message(role, content, name)` constructs a message rather than raising. */
  predicate Accepts(role: Value, content: ContentArg, name: Value) {
    && IsOneOf(role, RoleNames) && IsStrOrNone(name) && ArgTruthy(content)
    && AsList(content).Some? && AllContent(AsList(content).value)
    && (role.s == "system" ==> OneText(ContentsOf(AsList(content).value)))
  }

  /** The message an accepted construction yields. */
  function Built(role: Value, content: ContentArg, name: Value): (m: Message)
    requires Accepts(role, content, name)
    ensures RoleName(m.role) == role.s && |m.content| == |AsList(content).value|
  {
    MessageData(ParseRole(role.s), ContentsOf(AsList(content).value), NameOption(name))
  }

  /**
   * `Message(role, content, name)`: checks the role, the name, that content is a
   * non-empty list of Content objects, and the system-message rule, in that order.
   */
  method NewMessage(role: Value, content: ContentArg, name: Value) returns (r: Result<Message, MessageError>)
    ensures !Hashable(role) ==> r == Failure(UnhashableRole)
    ensures Hashable(role) && !IsOneOf(role, RoleNames) ==> r == Failure(InvalidRole)
    ensures IsOneOf(role, RoleNames) && !IsStrOrNone(name) ==> r == Failure(NameNotString)
    ensures IsOneOf(role, RoleNames) && IsStrOrNone(name) && !ArgTruthy(content) ==> r == Failure(NoContent)
    ensures IsOneOf(role, RoleNames) && IsStrOrNone(name) && ArgTruthy(content) && AsList(content).None? ==>
      r == Failure(ContentNotList)
    ensures (IsOneOf(role, RoleNames) && IsStrOrNone(name) && ArgTruthy(content) && AsList(content).Some? &&
             !AllContent(AsList(content).value)) ==> r == Failure(ItemNotContent)
    ensures (IsOneOf(role, RoleNames) && IsStrOrNone(name) && ArgTruthy(content) && AsList(content).Some? &&
             AllContent(AsList(content).value) && role.s == "system" &&
             !OneText(ContentsOf(AsList(content).value))) ==> r == Failure(SystemNotOneText)
    ensures r.Success? <==> Accepts(role, content, name)
    ensures r.Success? ==> r.value == Built(role, content, name)
  {
    if !Hashable(role) {
      return Failure(UnhashableRole);
    }
    if !IsOneOf(role, RoleNames) {
      return Failure(InvalidRole);
    }
    if !IsStrOrNone(name) {
      return Failure(NameNotString);
    }
    if !ArgTruthy(content) {
      return Failure(NoContent);
    }
    var items := AsList(content);
    if items.None? {
      return Failure(ContentNotList);
    }
    var cs := CheckItems(items.value);
    if cs.None? {
      return Failure(ItemNotContent);
    }
    if role.s == "system" && !OneText(cs.value) {
      return Failure(SystemNotOneText);
    }
    r := Success(Built(role, content, name));
  }

  /** A single text item under any role, with a string or absent name, is always accepted. */
  lemma OneTextAccepted(roleName: string, t: string, name: Value)
    requires roleName in RoleNames && IsStrOrNone(name)
    ensures Accepts(Str(roleName), ItemList([ContentItem(Text(t))]), name)
    ensures Built(Str(roleName), ItemList([ContentItem(Text(t))]), name) == MessageData(ParseRole(roleName), [Text(t)], NameOption(name))
  {
    assert ContentsOf([ContentItem(Text(t))]) == [Text(t)];
  }

  /** A system message is built only from exactly one text item. */
  lemma SystemMessageHasOneText(m: Message)
    requires m.role == System
    ensures |m.content| == 1 && m.content[0].Text?
  {
  }

  // ---------------------------------------------------------------------------
  // Serialisation, shared by every message form that holds Content objects

  /** `[item.to_dict(mapping) for item in content]`: the first failing item's error, or one record per item. */
  function ContentsToDict(cs: seq<Content>, mapping: Mapping): (r: Result<seq<Value>, FormatError>)
    ensures r.Success? <==> forall i :: 0 <= i < |cs| ==> ContentToDict(cs[i], mapping).Success?
    ensures r.Success? ==> |r.value| == |cs| && forall i :: 0 <= i < |cs| ==> ContentToDict(cs[i], mapping) == Success(r.value[i])
  {
    if cs == [] then Success([])
    else
      match ContentToDict(cs[0], mapping)
      case Failure(e) => Failure(e)
      case Success(head) =>
        match ContentsToDict(cs[1..], mapping)
        case Failure(e) => Failure(e)
        case Success(tail) => Success([head] + tail)
  }

  /** Python truthiness of the stored name: present and non-empty. */
  predicate HasName(name: Option<string>) {
    name.Some? && name.value != []
  }

  /**
   * The record `{"role": ..., "content": [...], "name": ...}`: contents are serialised in
   * order first, then the name, which is emitted (substituted) only when non-empty.
   */
  function SerializeMessage(roleName: string, cs: seq<Content>, name: Option<string>, mapping: Mapping): (r: Result<Value, FormatError>)
    ensures r.Success? <==> ContentsToDict(cs, mapping).Success? && (HasName(name) ==> Format(name.value, mapping).Success?)
    ensures r.Success? ==> r.value.Dict? && "role" in r.value.entries && r.value.entries["role"] == Str(roleName)
    ensures r.Success? ==> "content" in r.value.entries && r.value.entries["content"] == List(ContentsToDict(cs, mapping).value)
    ensures r.Success? ==> ("name" in r.value.entries <==> HasName(name))
    ensures r.Success? && HasName(name) ==> r.value.entries["name"] == Str(Format(name.value, mapping).value)
    ensures r.Success? ==> r.value.entries.Keys <= {"role", "content", "name"}
  {
    var items :- ContentsToDict(cs, mapping);
    if HasName(name) then
      var n :- Format(name.value, mapping);
      Success(Dict(map["role" := Str(roleName), "content" := List(items), "name" := Str(n)]))
    else
      Success(Record2("role", Str(roleName), "content", List(items)))
  }

  /** `message.to_dict(substitution_dict)`. */
  function ToDict(m: Message, mapping: Mapping): Result<Value, FormatError> {
    SerializeMessage(RoleName(m.role), m.content, m.name, mapping)
  }

  /** Serialisation keeps the content count and order: item i of the record is content i serialised. */
  lemma ToDictKeepsOrder(m: Message, mapping: Mapping, i: nat)
    requires ToDict(m, mapping).Success? && i < |m.content|
    ensures var items := ToDict(m, mapping).value.entries["content"];
      items.List? && |items.items| == |m.content| && ContentToDict(m.content[i], mapping) == Success(items.items[i])
  {
  }

  /** A message whose text and name hold no braces serialises, whatever the mapping. */
  lemma {:induction false} PlainMessageSerializes(cs: seq<Content>, name: Option<string>, roleName: string, mapping: Mapping)
    requires forall i :: 0 <= i < |cs| ==> cs[i].Text? ==> NoBraces(cs[i].text)
    requires name.Some? ==> NoBraces(name.value)
    ensures SerializeMessage(roleName, cs, name, mapping).Success?
    ensures HasName(name) ==> SerializeMessage(roleName, cs, name, mapping).value.entries["name"] == Str(name.value)
  {
    forall i | 0 <= i < |cs| ensures ContentToDict(cs[i], mapping).Success? {
      if cs[i].Text? {
        PlainTextToDict(cs[i].text, mapping);
      }
    }
    if HasName(name) {
      FormatPlainText(name.value, mapping);
    }
  }

  // ---------------------------------------------------------------------------
  // len(message) and message[index]

  /** `len(message)`: the number of content items, at least one. */
  function Len(m: Message): (n: nat)
    ensures n == |m.content| && n >= 1
    ensures m.role == System ==> n == 1
  {
    |m.content|
  }

  datatype IndexError = IndexOutOfRange  // IndexError("list index out of range")

  /** Python list indexing `content[index]`, negative indices counting from the end. */
  function ItemAt(cs: seq<Content>, index: int): (r: Result<Content, IndexError>)
    ensures r.Success? <==> -|cs| <= index < |cs|
    ensures 0 <= index < |cs| ==> r == Success(cs[index])
    ensures -|cs| <= index < 0 ==> r == Success(cs[|cs| + index])
  {
    if 0 <= index < |cs| then Success(cs[index])
    else if -|cs| <= index < 0 then Success(cs[|cs| + index])
    else Failure(IndexOutOfRange)
  }

  /** `message[index]`: the content item given at construction. */
  function GetItem(m: Message, index: int): Result<Content, IndexError> {
    ItemAt(m.content, index)
  }

  /** Indexing after construction returns exactly the items the constructor was given. */
  lemma GetItemReturnsConstructorItem(role: Role, items: seq<Item>, name: Option<string>, i: nat)
    requires AllContent(items) && i < |items|
    requires WellFormed(MessageData(role, ContentsOf(items), name))
    ensures GetItem(MessageData(role, ContentsOf(items), name), i) == Success(items[i].c)
    ensures GetItem(MessageData(role, ContentsOf(items), name), i - |items|) == Success(items[i].c)
  {
  }

  /** A negative index counts from the end: `message[i - len(message)]` is `message[i]`; past either end is an IndexError. */
  lemma GetItemNegativeIndex(m: Message, i: int)
    ensures 0 <= i < Len(m) ==> GetItem(m, i - Len(m)) == GetItem(m, i)
    ensures Len(m) <= i ==> GetItem(m, i).Failure? && GetItem(m, -i - 1).Failure?
  {
  }

  // ---------------------------------------------------------------------------
  // Display string

  const Blue: string := "\U{1b}[34m"

  /** `"role (name): "` when the name is non-empty, else `"role: "`. */
  function Heading(roleName: string, name: Option<string>): string {
    if HasName(name) then roleName + " (" + name.value + "): " else roleName + ": "
  }

  /** The items' display strings, one per line. */
  function ItemsRepr(cs: seq<Content>): string {
    Join("\n", seq(|cs|, i requires 0 <= i < |cs| => ContentRepr(cs[i])))
  }

  /** A coloured heading, then the items indented to align under it. */
  function DisplayString(roleName: string, cs: seq<Content>, name: Option<string>): string {
    Blue + Heading(roleName, name) + Reset + Indent(ItemsRepr(cs), |Heading(roleName, name)|)
  }

  /** `repr(message)`. */
  function MessageRepr(m: Message): string {
    DisplayString(RoleName(m.role), m.content, m.name)
  }

  /** The display string is the heading followed by the item lines, each continuation aligned under the heading. */
  lemma DisplayStringAligned(roleName: string, cs: seq<Content>, name: Option<string>)
    ensures var prefix := Blue + Heading(roleName, name) + Reset;
      var body := DisplayString(roleName, cs, name)[|prefix|..];
      && DisplayString(roleName, cs, name)[..|prefix|] == prefix
      && NewlinesIndented(body, |Heading(roleName, name)|)
      && Dedent(body, |Heading(roleName, name)|) == ItemsRepr(cs)
  {
    var prefix := Blue + Heading(roleName, name) + Reset;
    var n := |Heading(roleName, name)|;
    var body := Indent(ItemsRepr(cs), n);
    assert DisplayString(roleName, cs, name) == prefix + body;
    assert DisplayString(roleName, cs, name)[|prefix|..] == body;
    IndentedNewlines(ItemsRepr(cs), n);
    DedentIndent(ItemsRepr(cs), n);
  }
}

=== FILE: message_list.dfy ===
/**
 * The conversation container of OpenAIHelper/MessageList.py: an ordered
 * sequence of user and assistant messages plus a separate, optional system
 * message. Every mutator either raises and leaves the container as it was,
 * or performs exactly one change.
 */
module MessageLists {
  import opened Wrappers
  import opened PyValues
  import opened Formatting
  import opened Contents
  import opened Messages
  import opened Sequences

  datatype ListError =
    | NotPromptContent        // ValueError("content must be a string or TextContent")
    | OutOfRange              // ValueError("Index out of range")
    | RoleNotUserOrAssistant  // ValueError("Invalid role; must be 'user' or 'assistant'")
    | RoleUnhashable          // TypeError: an unhashable role tested against a set literal
    | NoMessageToPop          // ValueError("No message to pop")
    | NotEnoughMessages       // ValueError("Not enough messages to pop")
    | Rejected(e: MessageError)  // the error raised by the Message constructor
    | NoAttribute(attr: string)  // AttributeError: the object has no such attribute

  const ListRoles: set<string> := {"user", "assistant"}

  /** The text of a system prompt argument: a string, or the text of a TextContent. */
  function PromptText(content: Item): (r: Option<string>)
    ensures r.Some? <==> (content.OtherItem? && content.v.Str?) || (content.ContentItem? && content.c.Text?)
  {
    match content
    case OtherItem(Str(s)) => Some(s)
    case ContentItem(Text(t)) => Some(t)
    case _ => None
  }

  /** The role check of `add_message` / `modify_message_with_object`, applied to the role the message stores. */
  function Admit(m: Message): (r: Outcome<ListError>)
    ensures r.Pass? <==> m.role != System
    ensures r.Fail? ==> r.error == RoleNotUserOrAssistant
  {
    if RoleName(m.role) in ListRoles then Pass else Fail(RoleNotUserOrAssistant)
  }

  /** The value an attribute lookup on a Message object yields. */
  datatype Attribute =
    | RoleAttr(role: string)            // `_role`
    | NameAttr(name: Option<string>)    // `_name`
    | ContentAttr(items: seq<Content>)  // `_content`, the stored list itself
    | Member(member: string)            // a method or other member of the class

  /** The instance attributes the constructor sets. */
  const InstanceFields: set<string> := {"_role", "_name", "_content"}

  /**
   * The members class `Message` defines, as in Python 3.12 (from 3.13 every class
   * body also records `__static_attributes__` and `__firstlineno__`).
   */
  const ClassMembers: set<string> := {"__init__", "to_dict", "__repr__", "__len__", "__getitem__", "__doc__", "__module__", "__dict__", "__weakref__"}

  /** The members every class inherits from `object`. */
  const ObjectMembers: set<string> := {
    "__class__", "__delattr__", "__dir__", "__eq__", "__format__", "__ge__", "__getattribute__", "__getstate__",
    "__gt__", "__hash__", "__init_subclass__", "__le__", "__lt__", "__ne__", "__new__", "__reduce__",
    "__reduce_ex__", "__setattr__", "__sizeof__", "__str__", "__subclasshook__"}

  /**
   * `getattr(message, attr)`: the instance attributes first, then the members of
   * the class and of `object`; any other name raises AttributeError.
   */
  function GetAttr(m: Message, attr: string): (r: Result<Attribute, ListError>)
    ensures attr == "_role" ==> r == Success(RoleAttr(RoleName(m.role)))
    ensures attr == "_name" ==> r == Success(NameAttr(m.name))
    ensures attr == "_content" ==> r == Success(ContentAttr(m.content))
    ensures r.Success? <==> attr in InstanceFields + ClassMembers + ObjectMembers
    ensures r.Failure? ==> r.error == NoAttribute(attr)
  {
    if attr == "_role" then Success(RoleAttr(RoleName(m.role)))
    else if attr == "_name" then Success(NameAttr(m.name))
    else if attr == "_content" then Success(ContentAttr(m.content))
    else if attr in ClassMembers + ObjectMembers then Success(Member(attr))
    else Failure(NoAttribute(attr))
  }

  /** The role check as written: it reads `message.role`, an attribute Message does not define. */
  function AdmitAsWritten(m: Message): (r: Outcome<ListError>)
    ensures r.Pass? ==> m.role != System
  {
    match GetAttr(m, "role")
    case Failure(e) => Fail(e)
    case Success(a) => if a in {RoleAttr("user"), RoleAttr("assistant")} then Pass else Fail(RoleNotUserOrAssistant)
  }

  /** `role` is neither an instance attribute nor a member of the class or of `object`. */
  lemma RoleIsNoAttribute(m: Message)
    ensures "role" !in InstanceFields + ClassMembers + ObjectMembers
    ensures GetAttr(m, "role") == Failure(NoAttribute("role"))
  {
  }

  /** The check as written turns away every message, including the user and assistant messages it is meant to admit. */
  lemma AdmitAsWrittenRejectsEveryMessage(m: Message)
    ensures AdmitAsWritten(m) == Fail(NoAttribute("role"))
    ensures m.role == User ==> Admit(m).Pass?
  {
    RoleIsNoAttribute(m);
  }

  /** A concrete user message that `add_message` as written refuses. */
  lemma AddMessageAsWrittenCounterexample()
    ensures var m: Message := MessageData(User, [Text("I hate this.")], None);
      AdmitAsWritten(m).Fail? && Admit(m).Pass?
  {
    AdmitAsWrittenRejectsEveryMessage(MessageData(User, [Text("I hate this.")], None));
  }

  /** `[m.to_dict(mapping) for m in ms]`: the first failing message's error, or one record per message. */
  function MessagesToDict(ms: seq<Message>, mapping: Mapping): (r: Result<seq<Value>, FormatError>)
    ensures r.Success? <==> forall i :: 0 <= i < |ms| ==> Messages.ToDict(ms[i], mapping).Success?
    ensures r.Success? ==> |r.value| == |ms| && forall i :: 0 <= i < |ms| ==> Messages.ToDict(ms[i], mapping) == Success(r.value[i])
  {
    if ms == [] then Success([])
    else
      match Messages.ToDict(ms[0], mapping)
      case Failure(e) => Failure(e)
      case Success(head) =>
        match MessagesToDict(ms[1..], mapping)
        case Failure(e) => Failure(e)
        case Success(tail) => Success([head] + tail)
  }

  class MessageList {
    var messages: seq<Message>
    var system: Option<Message>

    /** The system slot holds a system message; the sequence holds only user and assistant messages. */
    predicate Valid()
      reads this
    {
      && (system.Some? ==> system.value.role == System)
      && (forall i :: 0 <= i < |messages| ==> messages[i].role != System)
    }

    constructor ()
      ensures Valid() && messages == [] && system == None
    {
      messages := [];
      system := None;
    }

    /** `len(list)`: the system message is not counted. */
    function Len(): (n: nat)
      reads this
      ensures n == |messages|
    {
      |messages|
    }

    /** `set_system_prompt`: a string is wrapped into a TextContent; the sequence is never touched. */
    method SetSystemPrompt(content: Item, name: Value) returns (r: Outcome<ListError>)
      requires Valid()
      modifies this
      ensures Valid() && messages == old(messages)
      ensures PromptText(content).None? ==> r == Fail(NotPromptContent)
      ensures PromptText(content).Some? && !IsStrOrNone(name) ==> r == Fail(Rejected(NameNotString))
      ensures r.Pass? <==> PromptText(content).Some? && IsStrOrNone(name)
      ensures r.Pass? ==> system == Some(MessageData(System, [Text(PromptText(content).value)], NameOption(name)))
      ensures r.Fail? ==> system == old(system)
    {
      var text := PromptText(content);
      if text.None? {
        return Fail(NotPromptContent);
      }
      var m := NewMessage(Str("system"), ItemList([ContentItem(Text(text.value))]), name);
      if m.Failure? {
        return Fail(Rejected(m.error));
      }
      OneTextAccepted("system", text.value, name);
      system := Some(m.value);
      r := Pass;
    }

    /** `unset_system_prompt`: clears the slot (so a second call changes nothing). */
    method UnsetSystemPrompt()
      requires Valid()
      modifies this
      ensures Valid() && system == None && messages == old(messages)
    {
      system := None;
    }

    /** Appends `Message(role, content, name)` after normalising a lone Content into a one-element list. */
    method AddWithRole(roleName: string, content: ContentArg, name: Value) returns (r: Outcome<ListError>)
      requires Valid() && roleName in ListRoles
      modifies this
      ensures Valid() && system == old(system)
      ensures r.Pass? <==> Accepts(Str(roleName), WrapSingle(content), name)
      ensures r.Pass? ==> messages == old(messages) + [Built(Str(roleName), WrapSingle(content), name)]
      ensures r.Fail? ==> messages == old(messages) && r.error.Rejected?
    {
      var m := NewMessage(Str(roleName), WrapSingle(content), name);
      if m.Failure? {
        return Fail(Rejected(m.error));
      }
      messages := messages + [m.value];
      r := Pass;
    }

    /** `add_user_message`: one user message is appended at the end. */
    method AddUserMessage(content: ContentArg, name: Value) returns (r: Outcome<ListError>)
      requires Valid()
      modifies this
      ensures Valid() && system == old(system)
      ensures r.Pass? <==> Accepts(Str("user"), WrapSingle(content), name)
      ensures r.Pass? ==> |messages| == |old(messages)| + 1 && messages[..|old(messages)|] == old(messages)
      ensures r.Pass? ==> messages[|old(messages)|] == Built(Str("user"), WrapSingle(content), name)
      ensures r.Pass? ==> messages[|old(messages)|].role == User
      ensures r.Fail? ==> messages == old(messages)
    {
      r := AddWithRole("user", content, name);
    }

    /** `add_assistant_message`: one assistant message is appended at the end. */
    method AddAssistantMessage(content: ContentArg, name: Value) returns (r: Outcome<ListError>)
      requires Valid()
      modifies this
      ensures Valid() && system == old(system)
      ensures r.Pass? <==> Accepts(Str("assistant"), WrapSingle(content), name)
      ensures r.Pass? ==> |messages| == |old(messages)| + 1 && messages[..|old(messages)|] == old(messages)
      ensures r.Pass? ==> messages[|old(messages)|] == Built(Str("assistant"), WrapSingle(content), name)
      ensures r.Pass? ==> messages[|old(messages)|].role == Assistant
      ensures r.Fail? ==> messages == old(messages)
    {
      r := AddWithRole("assistant", content, name);
    }

    /** `add_message`: appends a user or assistant message as it is. */
    method AddMessage(m: Message) returns (r: Outcome<ListError>)
      requires Valid()
      modifies this
      ensures Valid() && system == old(system)
      ensures r == Admit(m)
      ensures r.Pass? ==> messages == old(messages) + [m]
      ensures r.Fail? ==> messages == old(messages)
    {
      r := Admit(m);
      if r.Pass? {
        messages := messages + [m];
      }
    }

    /**
     * `modify_message`: the index is checked first, then the role, then the new
     * message is built; only position `index` changes.
     */
    method ModifyMessage(index: int, role: Value, content: ContentArg, name: Value) returns (r: Outcome<ListError>)
      requires Valid()
      modifies this
      ensures Valid() && system == old(system)
      ensures !(0 <= index < |old(messages)|) ==> r == Fail(OutOfRange)
      ensures 0 <= index < |old(messages)| && !Hashable(role) ==> r == Fail(RoleUnhashable)
      ensures 0 <= index < |old(messages)| && Hashable(role) && !IsOneOf(role, ListRoles) ==> r == Fail(RoleNotUserOrAssistant)
      ensures r.Pass? <==> 0 <= index < |old(messages)| && IsOneOf(role, ListRoles) && Accepts(role, WrapSingle(content), name)
      ensures r.Pass? ==> messages == old(messages)[index := Built(role, WrapSingle(content), name)]
      ensures r.Fail? ==> messages == old(messages)
    {
      if index >= |messages| || index < 0 {
        return Fail(OutOfRange);
      }
      if !Hashable(role) {
        return Fail(RoleUnhashable);
      }
      if !IsOneOf(role, ListRoles) {
        return Fail(RoleNotUserOrAssistant);
      }
      var m := NewMessage(role, WrapSingle(content), name);
      if m.Failure? {
        return Fail(Rejected(m.error));
      }
      messages := messages[index := m.value];
      r := Pass;
    }

    /** `modify_message_with_object`: the same bounds check, then the role check, then one slot is replaced. */
    method ModifyMessageWithObject(index: int, m: Message) returns (r: Outcome<ListError>)
      requires Valid()
      modifies this
      ensures Valid() && system == old(system)
      ensures !(0 <= index < |old(messages)|) ==> r == Fail(OutOfRange)
      ensures 0 <= index < |old(messages)| ==> r == Admit(m)
      ensures r.Pass? ==> messages == old(messages)[index := m]
      ensures r.Fail? ==> messages == old(messages)
    {
      if index >= |messages| || index < 0 {
        return Fail(OutOfRange);
      }
      r := Admit(m);
      if r.Pass? {
        messages := messages[index := m];
      }
    }

    /** `pop_message`: removes and returns the last message. */
    method PopMessage() returns (r: Result<Message, ListError>)
      requires Valid()
      modifies this
      ensures Valid() && system == old(system)
      ensures old(messages) == [] ==> r == Failure(NoMessageToPop) && messages == []
      ensures old(messages) != [] ==> r == Success(old(messages)[|old(messages)| - 1])
      ensures old(messages) != [] ==> messages == old(messages)[..|old(messages)| - 1]
    {
      if messages == [] {
        return Failure(NoMessageToPop);
      }
      r := Success(messages[|messages| - 1]);
      messages := messages[..|messages| - 1];
    }

    /**
     * `pop_messages(repeat)`: fails without change when fewer than `repeat` messages
     * are held; otherwise pops `repeat` times (none when `repeat` <= 0), returning
     * the popped messages most recent first.
     */
    method PopMessages(repeat: int) returns (r: Result<seq<Message>, ListError>)
      requires Valid()
      modifies this
      ensures Valid() && system == old(system)
      ensures |old(messages)| < repeat ==> r == Failure(NotEnoughMessages) && messages == old(messages)
      ensures repeat <= 0 ==> r == Success([]) && messages == old(messages)
      ensures 0 <= repeat <= |old(messages)| ==>
        && r.Success?
        && messages == old(messages)[..|old(messages)| - repeat]
        && r.value == Reverse(old(messages)[|old(messages)| - repeat..])
      ensures r.Success? ==> old(messages) == messages + Reverse(r.value)
    {
      if |messages| < repeat {
        return Failure(NotEnoughMessages);
      }
      var count := if repeat < 0 then 0 else repeat;
      var popped: seq<Message> := [];
      for i := 0 to count
        invariant Valid() && system == old(system)
        invariant messages == old(messages)[..|old(messages)| - i]
        invariant |popped| == i
        invariant forall j :: 0 <= j < i ==> popped[j] == old(messages)[|old(messages)| - 1 - j]
      {
        popped := popped + [messages[|messages| - 1]];
        messages := messages[..|messages| - 1];
      }
      assert popped == Reverse(old(messages)[|old(messages)| - count..]);
      PoppedRestore(old(messages), count);
      r := Success(popped);
    }

    /** `to_dict(mapping)`: the system record first when a system message is set, then one record per message in order. */
    function ToDict(mapping: Mapping): (r: Result<seq<Value>, FormatError>)
      reads this
      ensures r.Success? ==> |r.value| == |messages| + (if system.Some? then 1 else 0)
      ensures r.Success? && system.Some? ==> Messages.ToDict(system.value, mapping) == Success(r.value[0])
      ensures r.Success? ==> var offset := if system.Some? then 1 else 0;
        forall i :: 0 <= i < |messages| ==> Messages.ToDict(messages[i], mapping) == Success(r.value[offset + i])
      ensures r.Success? <==>
        && (system.Some? ==> Messages.ToDict(system.value, mapping).Success?)
        && MessagesToDict(messages, mapping).Success?
    {
      var head :- if system.Some? then MessagesToDict([system.value], mapping) else Success([]);
      var tail :- MessagesToDict(messages, mapping);
      Success(head + tail)
    }
  }
}

=== FILE: py_values.dfy ===
/**
 * The dynamically typed Python values that the constructors of the message
 * model inspect with `isinstance`, `type(...) != str`, `in {...}` and truthiness
 * tests. Dictionaries are keyed by strings; the serialised records produced by
 * every `to_dict` are values of this type too.
 */
module PyValues {

  datatype Value =
    | Str(s: string)
    | Int(i: int)
    | Bool(b: bool)
    | NoneVal
    | List(items: seq<Value>)
    | Dict(entries: map<string, Value>)

  /** Python truthiness (`if v:` / `not v`). */
  predicate Truthy(v: Value) {
    match v
    case Str(s) => s != []
    case Int(i) => i != 0
    case Bool(b) => b
    case NoneVal => false
    case List(xs) => xs != []
    case Dict(d) => d != map[]
  }

  /** Lists and dicts are unhashable: `v in {...}` raises TypeError for them. */
  predicate Hashable(v: Value) {
    !v.List? && !v.Dict?
  }

  /** `isinstance(v, str) or v is None`, the test applied to optional string arguments. */
  predicate IsStrOrNone(v: Value) {
    v.Str? || v.NoneVal?
  }

  /** `v` is one of the string literals `names` (Python `v in {...}` / `v in [...]`). */
  predicate IsOneOf(v: Value, names: set<string>) {
    v.Str? && v.s in names
  }

  /** The one-field record `{key: v}`. */
  function Record1(k1: string, v1: Value): Value {
    Dict(map[k1 := v1])
  }

  /** The two-field record `{k1: v1, k2: v2}`. */
  function Record2(k1: string, v1: Value, k2: string, v2: Value): Value
    requires k1 != k2
  {
    Dict(map[k1 := v1, k2 := v2])
  }
}

=== FILE: sequences.dfy ===
/** Sequence helpers shared by the message containers. */
module Sequences {

  /** `s` in reverse order: the order in which repeated `pop()` calls return its elements. */
  function Reverse<T>(s: seq<T>): (r: seq<T>)
    ensures |r| == |s|
    ensures forall i :: 0 <= i < |s| ==> r[i] == s[|s| - 1 - i]
  {
    if s == [] then [] else Reverse(s[1..]) + [s[0]]
  }

  /** Reversing twice gives back the original sequence. */
  lemma ReverseReverse<T>(s: seq<T>)
    ensures Reverse(Reverse(s)) == s
  {
    assert forall i :: 0 <= i < |s| ==> Reverse(Reverse(s))[i] == s[i];
  }

  /** Popping the last `n` elements and appending them back in reverse restores the sequence. */
  lemma PoppedRestore<T>(s: seq<T>, n: nat)
    requires n <= |s|
    ensures s[..|s| - n] + Reverse(Reverse(s[|s| - n..])) == s
  {
    ReverseReverse(s[|s| - n..]);
  }
}

=== FILE: string_operations.dfy ===
/**
 * Text helpers of OpenAIHelper/utils/StringOperations.py: the final
 * whitespace step of `remove_markdown`, and `split_ordered_list`, which cuts a
 * numbered list ("1. ...", "2. ...") into its items.
 */
module StringOperations {
  import opened Strings

  // ---------------------------------------------------------------------------
  // remove_markdown

  /** The number of newlines `s` starts with. */
  function NewlineRun(s: string): (k: nat)
    ensures k <= |s|
    ensures forall i :: 0 <= i < k ==> s[i] == '\n'
    ensures k < |s| ==> s[k] != '\n'
  {
    if s != [] && s[0] == '\n' then 1 + NewlineRun(s[1..]) else 0
  }

  /** `re.sub(r"\n{2,}", "\n\n", s)`: every run of two or more newlines becomes exactly two. */
  function CollapseNewlines(s: string): (r: string)
    ensures r == [] <==> s == []
    ensures s != [] ==> r[0] == s[0]
    decreases |s|
  {
    if s == [] then []
    else if s[0] != '\n' then [s[0]] + CollapseNewlines(s[1..])
    else
      var k := NewlineRun(s);
      (if k >= 2 then "\n\n" else "\n") + CollapseNewlines(s[k..])
  }

  /** No three consecutive newlines. */
  predicate NoTripleNewline(s: string) {
    forall i :: 0 <= i && i + 2 < |s| ==> !(s[i] == '\n' && s[i + 1] == '\n' && s[i + 2] == '\n')
  }

  /** After collapsing, no run of three or more newlines is left. */
  lemma {:induction false} CollapseLeavesNoTriple(s: string)
    ensures NoTripleNewline(CollapseNewlines(s))
    decreases |s|
  {
    if s == [] {
    } else if s[0] != '\n' {
      CollapseLeavesNoTriple(s[1..]);
      var rest := CollapseNewlines(s[1..]);
      var r := [s[0]] + rest;
      forall i | 0 <= i && i + 2 < |r| ensures !(r[i] == '\n' && r[i + 1] == '\n' && r[i + 2] == '\n') {
        if i > 0 {
          assert r[i] == rest[i - 1] && r[i + 1] == rest[i] && r[i + 2] == rest[i + 1];
        }
      }
    } else {
      var k := NewlineRun(s);
      CollapseLeavesNoTriple(s[k..]);
      var rest := CollapseNewlines(s[k..]);
      var head := if k >= 2 then "\n\n" else "\n";
      var r := head + rest;
      assert rest != [] ==> rest[0] != '\n';
      forall i | 0 <= i && i + 2 < |r| ensures !(r[i] == '\n' && r[i + 1] == '\n' && r[i + 2] == '\n') {
        if i >= |head| {
          var j := i - |head|;
          assert r[i] == rest[j] && r[i + 1] == rest[j + 1] && r[i + 2] == rest[j + 2];
        } else {
          assert r[|head|] == rest[0];
        }
      }
    }
  }

  /** `s` with its newlines removed. */
  function WithoutNewlines(s: string): string {
    if s == [] then [] else (if s[0] == '\n' then [] else [s[0]]) + WithoutNewlines(s[1..])
  }

  lemma {:induction false} WithoutNewlinesDrop(s: string, k: nat)
    requires k <= |s| && forall i :: 0 <= i < k ==> s[i] == '\n'
    ensures WithoutNewlines(s) == WithoutNewlines(s[k..])
    decreases k
  {
    if k > 0 {
      WithoutNewlinesDrop(s[1..], k - 1);
      assert s[1..][k - 1..] == s[k..];
    }
  }

  /** Collapsing changes newlines only: every other character survives, in order. */
  lemma {:induction false} CollapseKeepsText(s: string)
    ensures WithoutNewlines(CollapseNewlines(s)) == WithoutNewlines(s)
    decreases |s|
  {
    if s == [] {
    } else if s[0] != '\n' {
      CollapseKeepsText(s[1..]);
      var r := [s[0]] + CollapseNewlines(s[1..]);
      assert r[1..] == CollapseNewlines(s[1..]);
    } else {
      var k := NewlineRun(s);
      CollapseKeepsText(s[k..]);
      WithoutNewlinesDrop(s, k);
      var head := if k >= 2 then "\n\n" else "\n";
      WithoutNewlinesDrop(head + CollapseNewlines(s[k..]), |head|);
      assert (head + CollapseNewlines(s[k..]))[|head|..] == CollapseNewlines(s[k..]);
    }
  }

  /** The `extra_whitespace` step: collapse newline runs, then strip. */
  function TidyWhitespace(s: string): string {
    Strip(CollapseNewlines(s))
  }

  /** A slice of a text without triple newlines has none either. */
  lemma SliceKeepsNoTriple(c: string, off: nat, len: nat)
    requires NoTripleNewline(c) && off + len <= |c|
    ensures NoTripleNewline(c[off..off + len])
  {
    var r := c[off..off + len];
    forall i | 0 <= i && i + 2 < |r| ensures !(r[i] == '\n' && r[i + 1] == '\n' && r[i + 2] == '\n') {
      assert r[i] == c[off + i] && r[i + 1] == c[off + i + 1] && r[i + 2] == c[off + i + 2];
    }
  }

  /** The tidied text has no run of three newlines and no leading or trailing whitespace. */
  lemma TidyWhitespaceShape(s: string)
    ensures var r := TidyWhitespace(s);
      NoTripleNewline(r) && (r == [] || (!IsSpace(r[0]) && !IsSpace(r[|r| - 1])))
  {
    var c := CollapseNewlines(s);
    CollapseLeavesNoTriple(s);
    var r := Strip(c);
    StripShape(c);
    var off := |c| - |LStrip(c)|;
    SliceKeepsNoTriple(c, off, |r|);
  }

  /**
   * `remove_markdown(text, ..., extra_whitespace)`. The six substitutions under the
   * five markup flags are given as one function `markup`, applied first; the
   * whitespace step follows when `extraWhitespace` is set.
   */
  function RemoveMarkdown(text: string, extraWhitespace: bool, markup: string -> string): (r: string)
    ensures !extraWhitespace ==> r == markup(text)
    ensures extraWhitespace ==> NoTripleNewline(r) && (r == [] || (!IsSpace(r[0]) && !IsSpace(r[|r| - 1])))
  {
    if extraWhitespace then
      TidyWhitespaceShape(markup(text));
      TidyWhitespace(markup(text))
    else
      markup(text)
  }

  // ---------------------------------------------------------------------------
  // split("\n")

  /** The index of the first newline of `s`, or `|s|` when there is none. */
  function FirstNewline(s: string): (i: nat)
    ensures i <= |s| && (i < |s| ==> s[i] == '\n') && forall j :: 0 <= j < i ==> s[j] != '\n'
  {
    if s == [] || s[0] == '\n' then 0 else 1 + FirstNewline(s[1..])
  }

  /** `s.split("\n")`: the pieces between newlines; there is always at least one. */
  function SplitLines(s: string): (lines: seq<string>)
    ensures |lines| >= 1
    ensures forall i, j :: 0 <= i < |lines| && 0 <= j < |lines[i]| ==> lines[i][j] != '\n'
    decreases |s|
  {
    var i := FirstNewline(s);
    if i == |s| then [s] else [s[..i]] + SplitLines(s[i + 1..])
  }

  /** Joining the pieces with newlines gives back the text. */
  lemma {:induction false} JoinSplitLines(s: string)
    ensures Join("\n", SplitLines(s)) == s
    decreases |s|
  {
    var i := FirstNewline(s);
    if i < |s| {
      JoinSplitLines(s[i + 1..]);
      var rest := SplitLines(s[i + 1..]);
      var lines := [s[..i]] + rest;
      assert SplitLines(s) == lines;
      assert lines[0] == s[..i] && lines[1..] == rest && |lines| > 1;
      assert Join("\n", lines) == s[..i] + "\n" + Join("\n", rest);
      assert s == s[..i] + "\n" + s[i + 1..];
    }
  }

  // ---------------------------------------------------------------------------
  // split_ordered_list

  /** The loop state: the next expected number, the items so far, and the item being accumulated. */
  datatype SplitState = SplitState(number: nat, items: seq<string>, current: string)

  const Start: SplitState := SplitState(1, [], "")

  /** `str(n) + ". "`, the marker of item `n`. */
  function Marker(n: nat): string {
    NatToString(n) + ". "
  }

  /** Whether a line, once stripped, opens the next expected item. */
  predicate Opens(st: SplitState, line: string) {
    StartsWith(Strip(line), Marker(st.number))
  }

  /**
   * One loop iteration. A line opening item `number` closes the current item and
   * starts a new one from the line without its marker; any other line is added to
   * the current item after a newline.
   */
  function Step(st: SplitState, line: string): (st': SplitState)
    ensures Opens(st, line) ==> st'.number == st.number + 1 && st'.items == st.items + [st.current]
    ensures !Opens(st, line) ==> st' == st.(current := st.current + "\n" + Strip(line))
  {
    var l := Strip(line);
    if StartsWith(l, Marker(st.number)) then
      SplitState(st.number + 1, st.items + [st.current], Strip(ReplaceAll(l, Marker(st.number), "")))
    else
      st.(current := st.current + "\n" + l)
  }

  /** The loop over `lines`, from state `st`. */
  function Run(lines: seq<string>, st: SplitState): SplitState {
    if lines == [] then st else Run(lines[1..], Step(st, lines[0]))
  }

  /** After the loop: the last item is kept only when it is non-empty. */
  function Finish(st: SplitState): seq<string> {
    if st.current != [] then st.items + [st.current] else st.items
  }

  /** The number of lines the loop recognises as opening an item. */
  function Recognised(lines: seq<string>, st: SplitState): nat {
    if lines == [] then 0 else (if Opens(st, lines[0]) then 1 else 0) + Recognised(lines[1..], Step(st, lines[0]))
  }

  lemma RunConcat(lines: seq<string>, i: nat, st: SplitState)
    requires i < |lines|
    ensures Run(lines[i..], st) == Run(lines[i + 1..], Step(st, lines[i]))
  {
    assert lines[i..][1..] == lines[i + 1..];
  }

  /**
   * `split_ordered_list(text, remove_markdown_option, ...)`; `extraWhitespace`
   * and `markup` are the arguments passed on to `remove_markdown`.
   */
  method SplitOrderedList(text: string, removeMarkdownOption: bool, extraWhitespace: bool, markup: string -> string)
    returns (r: seq<string>)
    ensures var t := if removeMarkdownOption then RemoveMarkdown(text, extraWhitespace, markup) else text;
      r == Finish(Run(SplitLines(t), Start))
  {
    var t := text;
    if removeMarkdownOption {
      t := RemoveMarkdown(text, extraWhitespace, markup);
    }
    var lines := SplitLines(t);
    var number: nat := 1;
    var items: seq<string> := [];
    var current: string := "";
    assert lines[0..] == lines;
    for i := 0 to |lines|
      invariant Run(lines[i..], SplitState(number, items, current)) == Run(lines, Start)
    {
      ghost var before := SplitState(number, items, current);
      RunConcat(lines, i, before);
      var line := Strip(lines[i]);
      if StartsWith(line, Marker(number)) {
        items := items + [current];
        current := Strip(ReplaceAll(line, Marker(number), ""));
        number := number + 1;
      } else {
        current := current + "\n" + line;
      }
      assert SplitState(number, items, current) == Step(before, lines[i]);
    }
    assert lines[|lines|..] == [];
    if current != [] {
      items := items + [current];
    }
    r := items;
  }

  /** Each recognised line closes exactly one item: the loop's item count grows with its expected number. */
  lemma {:induction false} RunCounts(lines: seq<string>, st: SplitState)
    ensures var end := Run(lines, st);
      && end.number == st.number + Recognised(lines, st)
      && |end.items| == |st.items| + Recognised(lines, st)
      && end.items[..|st.items|] == st.items
    decreases |lines|
  {
    if lines != [] {
      var next := Step(st, lines[0]);
      var bump := if Opens(st, lines[0]) then 1 else 0;
      assert next.number == st.number + bump && |next.items| == |st.items| + bump;
      assert next.items[..|st.items|] == st.items;
      RunCounts(lines[1..], next);
      var end := Run(lines, st);
      assert end == Run(lines[1..], next);
      assert Recognised(lines, st) == bump + Recognised(lines[1..], next);
      assert end.items[..|st.items|] == end.items[..|next.items|][..|st.items|];
    }
  }

  /** The number of items is the number of recognised lines, plus one when the last item is non-empty. */
  lemma SplitLength(text: string)
    ensures var end := Run(SplitLines(text), Start);
      |Finish(end)| == Recognised(SplitLines(text), Start) + (if end.current != [] then 1 else 0)
  {
    RunCounts(SplitLines(text), Start);
  }

  /** Without any recognised line, the current item only grows, each line adding a newline. */
  lemma {:induction false} NoOpenKeepsAccumulating(lines: seq<string>, st: SplitState)
    requires Recognised(lines, st) == 0
    ensures Run(lines, st).items == st.items && Run(lines, st).number == st.number
    ensures |Run(lines, st).current| >= |st.current| + |lines|
    decreases |lines|
  {
    if lines != [] {
      assert !Opens(st, lines[0]);
      NoOpenKeepsAccumulating(lines[1..], Step(st, lines[0]));
    }
  }

  /** Text without a recognised numbered line comes back as one single item. */
  lemma UnnumberedTextIsOneItem(text: string)
    requires Recognised(SplitLines(text), Start) == 0
    ensures |Finish(Run(SplitLines(text), Start))| == 1
  {
    NoOpenKeepsAccumulating(SplitLines(text), Start);
  }

  /** When the first line opens item 1, the first element is the empty text before it. */
  lemma FirstItemOpensList(text: string)
    requires Opens(Start, SplitLines(text)[0])
    ensures var out := Finish(Run(SplitLines(text), Start));
      |out| >= 1 && out[0] == ""
  {
    var lines := SplitLines(text);
    var st1 := Step(Start, lines[0]);
    assert st1.items == [""];
    assert Run(lines, Start) == Run(lines[1..], st1);
    RunCounts(lines[1..], st1);
  }
}

=== FILE: strings.dfy ===
/**
 * The pieces of Python's `str` API that the message model relies on:
 * `replace`, `strip`, `startswith`, `str(n)`, slicing and `" " * n`.
 */
module Strings {

  /** `" " * n`. */
  function Spaces(n: nat): (r: string)
    ensures |r| == n && forall i :: 0 <= i < n ==> r[i] == ' '
  {
    seq(n, _ => ' ')
  }

  /** `s[:n]`: the first `n` characters, or all of `s` when it is shorter. */
  function Take(s: string, n: nat): (r: string)
    ensures |r| == if |s| < n then |s| else n
    ensures r == s[..|r|]
  {
    if |s| <= n then s else s[..n]
  }

  predicate StartsWith(s: string, prefix: string) {
    |prefix| <= |s| && s[..|prefix|] == prefix
  }

  /**
   * `s.replace(pat, rep)` for a non-empty `pat`: every occurrence of `pat`,
   * scanning left to right without overlaps, is replaced by `rep`.
   */
  function ReplaceAll(s: string, pat: string, rep: string): string
    requires pat != []
    decreases |s|
  {
    if |s| < |pat| then s
    else if s[..|pat|] == pat then rep + ReplaceAll(s[|pat|..], pat, rep)
    else [s[0]] + ReplaceAll(s[1..], pat, rep)
  }

  /** `s.replace("\n", "\n" + " " * n)`, the indentation used by the display strings. */
  function Indent(s: string, n: nat): string {
    ReplaceAll(s, "\n", "\n" + Spaces(n))
  }

  /** Undoes `Indent`: drops the `n` spaces that follow each newline. */
  function Dedent(s: string, n: nat): string
    decreases |s|
  {
    if s == [] then []
    else if s[0] == '\n' && n < |s| && s[1..n + 1] == Spaces(n) then "\n" + Dedent(s[n + 1..], n)
    else [s[0]] + Dedent(s[1..], n)
  }

  /** Every newline of `r` is followed by at least `n` spaces. */
  ghost predicate NewlinesIndented(r: string, n: nat) {
    forall i :: 0 <= i < |r| && r[i] == '\n' ==> i + n < |r| && r[i + 1..i + 1 + n] == Spaces(n)
  }

  lemma IndentStep(s: string, n: nat)
    requires s != []
    ensures Indent(s, n) == (if s[0] == '\n' then "\n" + Spaces(n) else [s[0]]) + Indent(s[1..], n)
  {
    assert s[..|"\n"|] == "\n" <==> s[0] == '\n';
  }

  /** Indenting never loses text: `Dedent` recovers the original string. */
  lemma {:induction false} DedentIndent(s: string, n: nat)
    ensures Dedent(Indent(s, n), n) == s
    decreases |s|
  {
    if s != [] {
      IndentStep(s, n);
      DedentIndent(s[1..], n);
      var rest := Indent(s[1..], n);
      if s[0] == '\n' {
        var r := "\n" + Spaces(n) + rest;
        assert r[1..n + 1] == Spaces(n);
        assert r[n + 1..] == rest;
      } else {
        var r := [s[0]] + rest;
        assert r[1..] == rest;
      }
    }
  }

  /** In an indented string every newline is followed by the `n` spaces of the indentation. */
  lemma {:induction false} IndentedNewlines(s: string, n: nat)
    ensures NewlinesIndented(Indent(s, n), n)
    decreases |s|
  {
    if s != [] {
      IndentStep(s, n);
      IndentedNewlines(s[1..], n);
      var rest := Indent(s[1..], n);
      var head := if s[0] == '\n' then "\n" + Spaces(n) else [s[0]];
      var r := head + rest;
      forall i | 0 <= i < |r| && r[i] == '\n'
        ensures i + n < |r| && r[i + 1..i + 1 + n] == Spaces(n)
      {
        if i < |head| {
          assert s[0] == '\n' && i == 0;
          assert r[1..1 + n] == Spaces(n);
        } else {
          var j := i - |head|;
          assert rest[j] == '\n';
          assert r[i + 1..i + 1 + n] == rest[j + 1..j + 1 + n];
        }
      }
    }
  }

  /** Python's `str.isspace` for one character (Unicode whitespace). */
  predicate IsSpace(c: char) {
    || c == ' '
    || ('\t' <= c <= '\r')
    || ('\U{1c}' <= c <= '\U{1f}')
    || c == '\U{85}'
    || c == '\U{a0}'
    || c == '\U{1680}'
    || ('\U{2000}' <= c <= '\U{200a}')
    || c == '\U{2028}'
    || c == '\U{2029}'
    || c == '\U{202f}'
    || c == '\U{205f}'
    || c == '\U{3000}'
  }

  /** `s.lstrip()`. */
  function LStrip(s: string): (r: string)
    ensures |r| <= |s|
    decreases |s|
  {
    if s != [] && IsSpace(s[0]) then LStrip(s[1..]) else s
  }

  /** `lstrip` removes leading whitespace only: the rest is a suffix of `s` starting with a non-space. */
  lemma {:induction false} LStripShape(s: string)
    ensures var r := LStrip(s);
      && r == s[|s| - |r|..]
      && (r == [] || !IsSpace(r[0]))
      && forall i :: 0 <= i < |s| - |r| ==> IsSpace(s[i])
    decreases |s|
  {
    if s != [] && IsSpace(s[0]) {
      LStripShape(s[1..]);
      assert forall i :: 1 <= i < |s| - |LStrip(s)| ==> s[i] == s[1..][i - 1];
    }
  }

  /** `s.rstrip()`. */
  function RStrip(s: string): (r: string)
    ensures |r| <= |s|
    decreases |s|
  {
    if s != [] && IsSpace(s[|s| - 1]) then RStrip(s[..|s| - 1]) else s
  }

  /** `rstrip` removes trailing whitespace only: the rest is a prefix of `s` ending in a non-space. */
  lemma {:induction false} RStripShape(s: string)
    ensures var r := RStrip(s);
      && r == s[..|r|]
      && (r == [] || !IsSpace(r[|r| - 1]))
      && forall i :: |r| <= i < |s| ==> IsSpace(s[i])
    decreases |s|
  {
    if s != [] && IsSpace(s[|s| - 1]) {
      RStripShape(s[..|s| - 1]);
    }
  }

  /** `s.strip()`. */
  function Strip(s: string): (r: string)
    ensures |r| <= |s|
  {
    RStrip(LStrip(s))
  }

  /** The stripped text is a slice of `s` with neither a leading nor a trailing whitespace character. */
  lemma StripShape(s: string)
    ensures var r := Strip(s);
      && (r == [] || (!IsSpace(r[0]) && !IsSpace(r[|r| - 1])))
      && |s| - |LStrip(s)| + |r| <= |s| && r == s[|s| - |LStrip(s)|..|s| - |LStrip(s)| + |r|]
  {
    var l := LStrip(s);
    LStripShape(s);
    var r := RStrip(l);
    RStripShape(l);
    var k := |s| - |l|;
    assert r == s[k..k + |r|] by {
      assert l[..|r|] == s[k..][..|r|] == s[k..k + |r|];
    }
    if r != [] {
      assert r[0] == l[0];
    }
  }

  /** `"".join(parts)` with separator `sep`. */
  function Join(sep: string, parts: seq<string>): string {
    if parts == [] then []
    else if |parts| == 1 then parts[0]
    else parts[0] + sep + Join(sep, parts[1..])
  }

  /** The decimal digit for `d`. */
  function Digit(d: nat): char
    requires d < 10
  {
    "0123456789"[d]
  }

  /** `str(n)` for a natural number. */
  function NatToString(n: nat): (r: string)
    ensures r != [] && forall i :: 0 <= i < |r| ==> '0' <= r[i] <= '9'
  {
    if n < 10 then [Digit(n)] else NatToString(n / 10) + [Digit(n % 10)]
  }
}

=== FILE: substitution_dict.dfy ===
/**
 * The substitution dictionary: a string-to-string mapping whose writes and
 * reads check, at run time, that keys and values are strings. It is the
 * mapping `format_map` consults when a message is serialised.
 */
module Substitution {
  import opened Wrappers
  import opened PyValues

  datatype DictError =
    | KeyNotString     // ValueError("key must be a string")
    | ValueNotString   // ValueError("value must be a string")
    | KeyMissing(key: string)  // KeyError raised by the underlying dict

  /** `d[key]` on bindings `entries`. */
  function Lookup(entries: map<string, string>, key: Value): Result<string, DictError> {
    if !key.Str? then Failure(KeyNotString)
    else if key.s in entries then Success(entries[key.s])
    else Failure(KeyMissing(key.s))
  }

  /** `d[key] = value` on bindings `entries`: the new bindings, or the error raised. */
  function Assign(entries: map<string, string>, key: Value, value: Value): Result<map<string, string>, DictError> {
    if !key.Str? then Failure(KeyNotString)
    else if !value.Str? then Failure(ValueNotString)
    else Success(entries[key.s := value.s])
  }

  /**
   * A checked write followed by a read: the key written now reads back the value
   * written and every other key reads back what it read before.
   */
  lemma AssignThenLookup(entries: map<string, string>, key: Value, value: Value, probe: Value)
    requires Assign(entries, key, value).Success?
    ensures key.Str? && value.Str?
    ensures probe == key ==> Lookup(Assign(entries, key, value).value, probe) == Success(value.s)
    ensures probe != key ==> Lookup(Assign(entries, key, value).value, probe) == Lookup(entries, probe)
  {
  }

  /** A write with a non-string key or value changes nothing. */
  lemma AssignRejects(entries: map<string, string>, key: Value, value: Value)
    requires !key.Str? || !value.Str?
    ensures Assign(entries, key, value).Failure?
    ensures !key.Str? ==> Assign(entries, key, value).error == KeyNotString
    ensures key.Str? ==> Assign(entries, key, value).error == ValueNotString
  {
  }

  class SubstitutionDict {
    var entries: map<string, string>

    constructor ()
      ensures entries == map[]
    {
      entries := map[];
    }

    /** `__setitem__`: checks the key, then the value, then binds. */
    method SetItem(key: Value, value: Value) returns (r: Outcome<DictError>)
      modifies this
      ensures !key.Str? ==> r == Fail(KeyNotString) && entries == old(entries)
      ensures key.Str? && !value.Str? ==> r == Fail(ValueNotString) && entries == old(entries)
      ensures key.Str? && value.Str? ==> r == Pass && entries == old(entries)[key.s := value.s]
      ensures r.Pass? ==> Assign(old(entries), key, value) == Success(entries)
    {
      if !key.Str? {
        return Fail(KeyNotString);
      }
      if !value.Str? {
        return Fail(ValueNotString);
      }
      entries := entries[key.s := value.s];
      r := Pass;
    }

    /** `__getitem__`: a non-string key is a ValueError, an absent string key a KeyError. */
    function GetItem(key: Value): (r: Result<string, DictError>)
      reads this
      ensures r.Success? <==> key.Str? && key.s in entries
      ensures r.Success? ==> r.value == entries[key.s]
      ensures r.Failure? && key.Str? ==> r.error == KeyMissing(key.s)
      ensures !key.Str? ==> r.error == KeyNotString
    {
      Lookup(entries, key)
    }
  }
}

=== FILE: tool_calls.dfy ===
/**
 * A tool call produced by the model (OpenAIChatHelper/message/ToolCalls.py):
 * an id, a type and a function description whose "name" and "arguments"
 * entries are strings. Serialisation substitutes placeholders in all four
 * strings and keeps only those two entries of the function description.
 */
module ToolCalls {
  import opened Wrappers
  import opened PyValues
  import opened Formatting

  datatype ToolCallError =
    | IdNotString                 // ValueError("ID must be a string")
    | TypeNotString               // ValueError("Type must be a string")
    | FunctionNotDict             // ValueError("Function must be a dictionary")
    | FunctionNameNotString       // ValueError("Function name must be a string")
    | FunctionArgumentsNotString  // ValueError("Function arguments must be a string")

  /** `fn` holds a string under `key`. */
  predicate HasString(fn: map<string, Value>, key: string) {
    key in fn && fn[key].Str?
  }

  datatype ToolCallData = ToolCallData(id: string, kind: string, fn: map<string, Value>)

  type ToolCall = t: ToolCallData | HasString(t.fn, "name") && HasString(t.fn, "arguments")
    witness ToolCallData("", "", map["name" := Str(""), "arguments" := Str("")])

  function FunctionName(t: ToolCall): string {
    t.fn["name"].s
  }

  function FunctionArguments(t: ToolCall): string {
    t.fn["arguments"].s
  }

  /** `ToolCalls(id, type, function)`: the checks run in argument order; the function dict is kept whole. */
  function NewToolCall(id: Value, kind: Value, fn: Value): (r: Result<ToolCall, ToolCallError>)
    ensures !id.Str? ==> r == Failure(IdNotString)
    ensures id.Str? && !kind.Str? ==> r == Failure(TypeNotString)
    ensures id.Str? && kind.Str? && !fn.Dict? ==> r == Failure(FunctionNotDict)
    ensures id.Str? && kind.Str? && fn.Dict? && !HasString(fn.entries, "name") ==> r == Failure(FunctionNameNotString)
    ensures id.Str? && kind.Str? && fn.Dict? && HasString(fn.entries, "name") && !HasString(fn.entries, "arguments") ==>
      r == Failure(FunctionArgumentsNotString)
    ensures r.Success? <==>
      id.Str? && kind.Str? && fn.Dict? && HasString(fn.entries, "name") && HasString(fn.entries, "arguments")
    ensures r.Success? ==> r.value.id == id.s && r.value.kind == kind.s && r.value.fn == fn.entries
  {
    if !id.Str? then Failure(IdNotString)
    else if !kind.Str? then Failure(TypeNotString)
    else if !fn.Dict? then Failure(FunctionNotDict)
    else if !HasString(fn.entries, "name") then Failure(FunctionNameNotString)
    else if !HasString(fn.entries, "arguments") then Failure(FunctionArgumentsNotString)
    else Success(ToolCallData(id.s, kind.s, fn.entries))
  }

  /** The record `{"id": ..., "type": ..., "function": {"name": ..., "arguments": ...}}`. */
  function ToolCallRecord(id: string, kind: string, name: string, arguments: string): (r: Value)
    ensures r.Dict? && r.entries.Keys == {"id", "type", "function"}
    ensures r.entries["function"].Dict? && r.entries["function"].entries.Keys == {"name", "arguments"}
  {
    Dict(map["id" := Str(id), "type" := Str(kind),
             "function" := Record2("name", Str(name), "arguments", Str(arguments))])
  }

  /**
   * `to_dict(mapping)`: id, type, function name and arguments are substituted in
   * that order, the first failure being the one raised.
   */
  function ToDict(t: ToolCall, mapping: Mapping): (r: Result<Value, FormatError>)
    ensures r.Success? <==>
      && Format(t.id, mapping).Success? && Format(t.kind, mapping).Success?
      && Format(FunctionName(t), mapping).Success? && Format(FunctionArguments(t), mapping).Success?
    ensures r.Success? ==> r.value == ToolCallRecord(Format(t.id, mapping).value, Format(t.kind, mapping).value,
                                                     Format(FunctionName(t), mapping).value, Format(FunctionArguments(t), mapping).value)
    ensures Format(t.id, mapping).Failure? ==> r == Failure(Format(t.id, mapping).error)
  {
    var id :- Format(t.id, mapping);
    var kind :- Format(t.kind, mapping);
    var name :- Format(FunctionName(t), mapping);
    var arguments :- Format(FunctionArguments(t), mapping);
    Success(ToolCallRecord(id, kind, name, arguments))
  }

  /** `to_dict()` with its default argument, an empty substitution mapping. */
  function ToDictDefault(t: ToolCall): Result<Value, FormatError> {
    ToDict(t, Some(map[]))
  }

  /** Entries of the function dict other than name and arguments never reach the record. */
  lemma ExtraFunctionEntriesDropped(t: ToolCall, key: string, v: Value, mapping: Mapping)
    requires key !in {"name", "arguments"}
    ensures var t': ToolCall := t.(fn := t.fn[key := v]);
      ToDict(t', mapping) == ToDict(t, mapping)
  {
  }

  /** Constructing from placeholder-free strings and serialising with the default mapping gives the strings back. */
  lemma PlainToolCallRoundTrip(id: string, kind: string, fn: map<string, Value>)
    requires HasString(fn, "name") && HasString(fn, "arguments")
    requires NoBraces(id) && NoBraces(kind) && NoBraces(fn["name"].s) && NoBraces(fn["arguments"].s)
    ensures NewToolCall(Str(id), Str(kind), Dict(fn)).Success?
    ensures ToDictDefault(NewToolCall(Str(id), Str(kind), Dict(fn)).value)
         == Success(ToolCallRecord(id, kind, fn["name"].s, fn["arguments"].s))
  {
    var m: Mapping := Some(map[]);
    FormatPlainText(id, m);
    FormatPlainText(kind, m);
    FormatPlainText(fn["name"].s, m);
    FormatPlainText(fn["arguments"].s, m);
  }

  /** Under the default mapping, a placeholder in any of the four strings makes serialisation fail. */
  lemma {:induction false} DefaultMappingRejectsPlaceholder(t: ToolCall, ps: seq<Piece>, k: nat)
    requires ValidPieces(ps) && k < |ps| && ps[k].Field?
    requires Unparse(ps) == t.id || Unparse(ps) == t.kind || Unparse(ps) == FunctionName(t) || Unparse(ps) == FunctionArguments(t)
    ensures ToDictDefault(t).Failure?
  {
    EmptyMappingRendersOnlyLiterals(ps);
  }
}

=== FILE: wrappers.dfy ===
/** Success/failure wrappers standing in for Python's exceptions. */
module Wrappers {

  datatype Option<+T> = None | Some(value: T)

  /** The outcome of an operation that returns a value or raises. */
  datatype Result<+R, +E> = Success(value: R) | Failure(error: E) {
    predicate IsFailure() { Failure? }

    function PropagateFailure<U>(): Result<U, E>
      requires Failure?
    {
      Failure(error)
    }

    function Extract(): R
      requires Success?
    {
      value
    }
  }

  /** The outcome of an operation that returns nothing or raises. */
  datatype Outcome<+E> = Pass | Fail(error: E) {
    predicate IsFailure() { Fail? }

    function PropagateFailure(): Outcome<E>
      requires Fail?
    {
      this
    }
  }
}
